=== FILE: README.md ===
# Steam timeline plugins: a Dafny model

Two game-client plugins report gameplay moments to the Steam recording
timeline. The current one is `SteamTimelines`; the older one is `SteamRecording`.
Each plugin has two parts.

- **Event mapper** (`EventDispatcher`, or the older `Plugin` class). It listens
  to host events: duty started, wiped or completed; condition-flag changes;
  login and logout; the per-tick framework update; zone changes. For each
  event it schedules a callback for the next framework tick. When that
  callback runs, it acquires the timeline interface. If the interface is
  available, it calls the typed timeline wrappers, for example to add an
  instantaneous "Death" marker, set the game mode, or start and end a game
  phase. The only state the mapper keeps is the last observed health value.
  It uses that value to detect the change into 0.
- **Interface acquisition** (`SteamTimeline.Get`, `LoadSteamApi`, `Dispose`).
  This is a memoized static singleton. It takes the Steam API module from the
  host, or the current plugin falls back to loading it itself. It then
  resolves two bootstrap exports, requests the `STEAMTIMELINE_INTERFACE_V004`
  interface, and checks its vtable.

The model is functional:

- The mapper is a state machine. `Handle` returns the next state and the
  queued actions. `Perform` turns one action into typed wrapper requests.
- The wrappers lower each request to one raw call on one of the 18 vtable
  slots.
- Acquisition is a pure function over an environment record (`SteamApi.Env`).
  That record answers every native question: the framework, the configured
  app id, the module load, the symbol lookups, the `Init`, user and interface
  results, and the vtable field.
- The singleton `Instance` is an `Option` threaded through `Get`/`Dispose`.
- Side effects of acquisition (file write, module load, environment
  variables, symbol lookups, native calls) are recorded in order as a trace.

Modules:

- `Wrappers`: `Option` and `Result`.
- `Native`: `uint32`, pointers, opaque floats, NUL-terminated strings,
  decimal text.
- `VTable`: slot order and native signatures.
- `Timeline`: the enums, the wrapper requests and their lowering.
- `SteamApi`: the environment, effects, failures, and the handshake both
  plugins share.
- `Acquisition`: current `Get`, `LoadSteamApi` and `Dispose`.
- `RecordingAcquisition`: the older host-only `Get` and `Dispose`.
- `Host`: events, subscription sources, deferred actions, and the zone-string
  fallback.
- `Dispatcher`: the current mapper.
- `RecordingPlugin`: the older mapper.

Call-site choices, where a call site leaves out parameters the wrapper
signature requires:

- The "Duty Wipe" and "Death" markers of `EventDispatcher` pass no icon
  priority or start offset. They are modelled as 0 and 0, as the sibling
  calls pass them explicitly.
- The duty phase tag passes no priority. The model keeps that priority as an
  explicit parameter `tagPriority`.

Phase pairing: the current mapper keeps no state about whether a game phase
is open. A start and an end are issued purely from the `BoundByDuty` flag
value that each callback captured. The model follows the code here.
`Dispatcher.UnmatchedPhaseEndWhenAcquisitionIsLate` shows the consequence:
an end with no start when the timeline first becomes available between the
two events.

## Model

| member | source | states |
|---|---|---|
| Native.FromCString | SteamTimelines/SteamTimeline.cs:15-17 | The native side reads a string argument up to its first NUL. What it reads is a NUL-free prefix of the buffer, ended by a NUL or by the buffer's end. |
| Native.CStringRoundTrip | SteamTimelines/SteamTimeline.cs:15-17 | A string marshalled with a trailing "\0" reads back unchanged if and only if it contains no NUL itself. |
| Native.Decimal | SteamTimelines/SteamTimeline.cs:163 | The app id's text form (`ToString`) is non-empty, all digits, and has no leading zero. |
| Native.DecimalRoundTrip | SteamTimelines/SteamTimeline.cs:163-176 | Parsing the written app-id text gives back the app id. |
| Native.DecimalInjective | SteamTimelines/SteamTimeline.cs:163-176 | Distinct app ids are written as distinct texts to the file and to both environment variables. |
| VTable.SlotIndex | SteamTimelines/SteamTimeline.cs:266-291 | Every wrapper slot lies inside the 18-slot table. |
| VTable.SlotOffset | SteamTimelines/SteamTimeline.cs:266-291 | A slot's byte offset is pointer-aligned and lies inside the packed table. |
| VTable.SlotLayoutBijective | SteamTimelines/SteamTimeline.cs:266-291 | The slot order is a bijection between the 18 slots and the indices 0..17. |
| VTable.SlotOffsetsDistinct | SteamTimelines/SteamTimeline.cs:266-291 | Distinct slots occupy distinct offsets. |
| Timeline.GameModeEncoding | SteamTimelines/SteamTimeline.cs:293-300 | The game-mode values are 0..5 (Max = 5). Decoding inverts encoding, and exactly the values up to 5 decode. |
| Timeline.ClipPriorityEncoding | SteamTimelines/SteamTimeline.cs:302-307 | The clip priorities are 0..3. Decoding inverts encoding, and exactly the values up to 3 decode. |
| Timeline.DefaultClipIsNotInvalid | SteamTimelines/SteamTimeline.cs:28-38 | The default clip priority is None, which is 1 and differs from Invalid (0). |
| Timeline.WrappersCoverNonQuerySlots | SteamTimelines/SteamTimeline.cs:14-133 | Every table slot except the two recording queries is called by some wrapper, and no wrapper calls a query. There are sixteen wrappers and sixteen such slots, so each wrapper calls a slot of its own. |
| Timeline.LowerMarshalsEachArgument | SteamTimelines/SteamTimeline.cs:14-133 | Each raw argument is the wrapper argument at the same position. A string gains exactly one trailing NUL; every other value passes through unchanged. |
| Timeline.LoweringConformsToSlot | SteamTimelines/SteamTimeline.cs:14-133 | Each wrapper calls its same-named slot with `this` as receiver. Its arguments match the slot's native signature kind by kind, and its return kind matches the slot's. No wrapper reaches either query slot. |
| Timeline.ArgumentsForwarded | SteamTimelines/SteamTimeline.cs:14-133 | The native callee sees exactly the wrapper's arguments, in order, if and only if none of its string arguments contains a NUL. |
| Timeline.Issue | SteamTimelines/SteamTimeline.cs:14-133 | Calling a wrapper appends exactly one raw call, to the slot of the same name on the same receiver, and leaves earlier calls alone. The call's argument kinds fit that slot's native signature. When no string argument holds a NUL, the callee reads exactly the wrapper's arguments. |
| Timeline.IssueAll | SteamRecording/SteamTimeline.cs:11-130 | A sequence of wrapper calls appends one lowered raw call per request, in order, after the calls already made. |
| SteamApi.Handshake | SteamTimelines/SteamTimeline.cs:221-257 | On a non-null handle the handshake succeeds if and only if both bootstrap symbols resolve and the V004 interface and its vtable are non-null. It then yields that interface. Its effects follow the protocol order: resolve the user symbol, fetch the user, resolve the interface symbol, request V004. It stops after one effect when the user symbol is missing, after three when the interface symbol is missing, and performs all four once both resolve. |
| SteamApi.HandshakeCheckOrder | SteamRecording/SteamTimeline.cs:159-196 | The reported failure is the first check that fails, in source order: user symbol, then interface symbol, then null interface, then null vtable. |
| Acquisition.LoadSteamApi | SteamTimelines/SteamTimeline.cs:148-201 | With no app id configured, nothing happens and null is returned. Otherwise the app-id file is written before the module is loaded, and a failed load stops there. After a successful load the effects are, in order: the two identity variables set to the app id; the lookup of `SteamAPI_RestartAppIfNecessary`; the call to it with the app id, only when it resolves; the lookup of `SteamAPI_Init`; and the call to `Init`, only when it resolves. The result is non-null if and only if the load succeeded, `SteamAPI_Init` resolved and `Init` returned non-zero. On success the result is the loaded module. |
| Acquisition.ModuleHandle | SteamTimelines/SteamTimeline.cs:212-215 | With the host's Steam API initialized, the host's library handle is used and nothing is loaded. Otherwise the fallback loader runs: with no app id it does nothing and yields null; with one, the app-id file and the module load come first, and a non-null handle is the loaded module, with `Init` as the last effect. |
| Acquisition.Get | SteamTimelines/SteamTimeline.cs:203-259 | A set singleton is returned with no effect. Otherwise the singleton is set if and only if the chain succeeds, to the interface it returns. That interface is the V004 interface, with a non-null vtable. |
| Acquisition.AfterLoad | SteamTimelines/SteamTimeline.cs:216-258 | Given a module handle and the effects of obtaining it, a null handle gives up with those effects alone. Otherwise the result is the handshake's on that handle, so it succeeds if and only if the handshake's checks pass. The effects are exactly the handle's effects followed by the handshake's, which is the whole protocol on success. The singleton is set exactly on success, to the V004 interface. |
| Acquisition.Dispose | SteamTimelines/SteamTimeline.cs:261-263 | The singleton is cleared. |
| Acquisition.GetFrameworkGate | SteamTimelines/SteamTimeline.cs:206-210 | `Get` gives up before any effect if and only if there is neither a framework nor a configured app id. |
| Acquisition.GetUsesHostHandle | SteamTimelines/SteamTimeline.cs:212-219 | With the host's Steam API initialized, no loader effect happens: no file write, module load, identity variable, restart or `Init` lookup or call. A null host handle then fails with no effect at all. |
| Acquisition.GetFallsBackToLoader | SteamTimelines/SteamTimeline.cs:212-219 | Otherwise, with an app id configured, the loader's file write and module load are the first effects. With no app id, `Get` fails with no effect. |
| Acquisition.GetRunsLoaderThenHandshake | SteamTimelines/SteamTimeline.cs:203-259 | Once the framework gate passes, `Get` succeeds if and only if the chosen module handle is non-null and the handshake's checks pass on it. It fails with a null-handle failure exactly when the handle is null. On a non-null handle, its result is the handshake's on that handle, and its effects are exactly the handle choice's followed by the handshake's. On the fallback path a success has performed the whole loader and then the whole handshake on the loaded module. |
| Acquisition.GetMemoizesSuccessOnly | SteamTimelines/SteamTimeline.cs:204-257 | After a success, any later `Get` returns the same interface with no effect, whatever the environment has become. After a failure, the next `Get` runs the full chain afresh. |
| Acquisition.DisposeForcesReacquire | SteamTimelines/SteamTimeline.cs:261-263 | After `Dispose` the next `Get` runs the full chain. |
| Acquisition.LoadSteamApiAsWritten | SteamTimelines/SteamTimeline.cs:163-185 | The loader as written throws if and only if an app id is configured, the module loaded, and `SteamAPI_RestartAppIfNecessary` does not resolve. When it throws, its effects are exactly: the app-id file, the module load, both identity variables, and the restart lookup. |
| Acquisition.GetAsWritten | SteamTimelines/SteamTimeline.cs:203-259 | `Get` as written throws if and only if no singleton is set, the host's Steam API is not initialized, and the loader as written throws. The thrown-through effects are exactly the app-id file, the module load, both identity variables and the restart lookup, so they never reach `Init` or the handshake. Wherever it does not throw, it answers exactly what the corrected `Get` answers. |
| Acquisition.AsWrittenRestartDecidesLoad | SteamTimelines/SteamTimeline.cs:178-198 | There are two environments that differ only in whether the restart check is exported. The loader as written throws on one and succeeds on the other; the corrected loader succeeds on both. On the first one, `Get` as written throws while the corrected `Get` reaches `Init`. |
| Acquisition.RestartNeverDecidesLoad | SteamTimelines/SteamTimeline.cs:178-198 | In the corrected loader, the restart check neither decides whether loading succeeds nor which module it returns. |
| Acquisition.AsWrittenAgreesWhenRestartResolves | SteamTimelines/SteamTimeline.cs:178-185 | When the restart symbol resolves, the loader as written and the corrected loader behave identically. |
| RecordingAcquisition.Get | SteamRecording/SteamTimeline.cs:139-197 | A set singleton is returned with no effect. Otherwise the singleton is set if and only if the chain succeeds, to the V004 interface with a non-null vtable. No loader effect ever happens. |
| RecordingAcquisition.Dispose | SteamRecording/SteamTimeline.cs:199-201 | The singleton is cleared. |
| RecordingAcquisition.GetHostChecks | SteamRecording/SteamTimeline.cs:142-157 | The three host checks come first, in order: framework null, then Steam API not initialized, then library handle null. Each fails if and only if it is the first to fail. Without an initialized host API, `Get` fails with no effect: there is no fallback. |
| RecordingAcquisition.GetRunsHandshakeOnHostHandle | SteamRecording/SteamTimeline.cs:159-196 | Once the three host checks pass, `Get` is exactly the handshake on the host's handle, in result and effects. It succeeds if and only if the handshake's checks pass, its effects are the whole protocol on success, and any failure is one of the handshake's own. |
| RecordingAcquisition.AgreesWithCurrentOnHostPath | SteamRecording/SteamTimeline.cs:139-197 | When the host reports an initialized Steam API, the older and current `Get` are identical, effects included. |
| RecordingAcquisition.GetMemoizesSuccessOnly | SteamRecording/SteamTimeline.cs:140-196 | Success is memoized with no further effect. Failure is not: the next `Get` runs the full chain afresh. |
| Host.ZoneString | SteamTimelines/EventDispatcher.cs:21-28 | A failed zone lookup yields the empty string. A successful one yields the place name. |
| Dispatcher.Handle | SteamTimelines/EventDispatcher.cs:30-138 | Only the framework update changes the state. Each event schedules at most one action. A condition flag other than loading or duty schedules nothing. |
| Dispatcher.Perform | SteamTimelines/EventDispatcher.cs:31-137 | A callback that finds the timeline makes at most two calls. It makes none exactly for a health change to a nonzero value, and two exactly when a duty is entered. Every instant marker describes the current zone, has icon priority 0 and offset 0, and has a valid clip priority. Every game-mode call selects Playing or LoadingScreen. |
| Dispatcher.Apply | SteamTimelines/EventDispatcher.cs:32-36 | Once `Get` has answered, a failed acquisition makes no call. A successful one makes exactly the given wrapper calls, in order, on the returned interface. The singleton and the acquisition effects are kept. |
| Dispatcher.RunOnTick | SteamTimelines/EventDispatcher.cs:31-36 | A callback acquires the timeline when it runs, and keeps the resulting singleton and acquisition effects. If acquisition fails it makes no call. Otherwise it makes exactly the action's wrapper calls, in order, on the acquired interface. |
| Dispatcher.HealthSampleStep | SteamTimelines/EventDispatcher.cs:106-129 | With no local player, nothing happens. The first sample only seeds the state. An unchanged sample (0 after 0 included) does nothing. A changed sample records the new value and schedules one health action carrying it. |
| Dispatcher.DeathIffTransitionIntoZero | SteamTimelines/EventDispatcher.cs:111-122 | A sample ends in a "Death" marker (icon `steam_death`) if and only if the health changed from a known nonzero value to 0. Otherwise it ends in no call at all, so a change away from 0 emits nothing. |
| Dispatcher.ReplayHealth | SteamTimelines/EventDispatcher.cs:106-129 | Replaying a run of health samples yields one call list per sample. |
| Dispatcher.DeathOncePerRunOfZeros | SteamTimelines/EventDispatcher.cs:106-129 | Over any run of samples, a sample ends in "Death" if and only if the value before it was known and nonzero and the sample is 0. So there is one marker per maximal run of zeros, and none for a run that the first sample opens. |
| Dispatcher.DeathScenario | SteamTimelines/EventDispatcher.cs:106-129 | Health 100, 100, 0, 0, 50 from a fresh dispatcher yields exactly one "Death", on the third sample. |
| Dispatcher.GameModeEvents | SteamTimelines/EventDispatcher.cs:59-104 | Entering a loading screen or logging out sets LoadingScreen. Leaving one or logging in sets Playing. |
| Dispatcher.DutyPhaseEvents | SteamTimelines/EventDispatcher.cs:59-86 | Entering a duty starts a game phase and then tags it (zone, `steam_attack`, "Duty"). Leaving one only ends the phase. Any other flag emits nothing. |
| Dispatcher.DutyMarkerEvents | SteamTimelines/EventDispatcher.cs:30-138 | The duty start, wipe and completion markers have the titles, icons and clip priorities of the source (Featured, None, Featured), icon priority 0 and offset 0, and the zone as description. A zone change sets the tooltip to the zone. |
| Dispatcher.PhaseMarksFollowDutyFlag | SteamTimelines/EventDispatcher.cs:71-84 | The phase starts and ends emitted over a run of duty-flag changes are exactly the flag's values, one for one, in order. No pairing state filters them. |
| Dispatcher.ModesFollowLoadingFlag | SteamTimelines/EventDispatcher.cs:61-69 | A run of loading-flag changes yields one mode call per change, each for that value. Two consecutive calls are equal if and only if the flag repeated a value. |
| Dispatcher.UnavailableTimelineDropsEveryAction | SteamTimelines/EventDispatcher.cs:30-138 | Any scheduled callback whose acquisition fails makes no call and leaves the singleton unset. The event is dropped. |
| Dispatcher.UnmatchedPhaseEndWhenAcquisitionIsLate | SteamTimelines/EventDispatcher.cs:71-84 | Enter a duty while the timeline is unavailable, then leave it once it is available. The result is a lone phase end. |
| Dispatcher.DisposeAsWrittenLeavesTerritoryHandler | SteamTimelines/EventDispatcher.cs:10-148 | As written, disposal leaves the zone-change subscription in place, and a zone change after disposal still schedules a tooltip. |
| Dispatcher.DisposeSilencesEveryEvent | SteamTimelines/EventDispatcher.cs:10-148 | The corrected disposal removes every subscription, and no event reaches the dispatcher afterwards. |
| Dispatcher.DisposeAsWritten | SteamTimelines/EventDispatcher.cs:140-148 | The disposal as written only removes subscriptions, and it keeps the zone-change subscription whenever one is present. |
| Dispatcher.Dispose | SteamTimelines/EventDispatcher.cs:10-19 | The corrected disposal only removes subscriptions, and nothing the constructor subscribed stays subscribed. |
| RecordingPlugin.Handle | SteamRecording/Plugin.cs:32-110 | Only the framework update changes the state, and each event schedules at most one action. |
| RecordingPlugin.Perform | SteamRecording/Plugin.cs:33-105 | A callback that finds the timeline makes at most one call, either an instant marker or a game-mode call. It makes none exactly for a health change to a nonzero value and for the duty-flag and zone-change actions this plugin never schedules. Every instant marker describes the current zone, has icon priority 0 and offset 0, and has a valid clip priority. |
| RecordingPlugin.RunOnTick | SteamRecording/Plugin.cs:33-38 | A callback acquires the timeline through the older host-only chain. It makes no call if that fails, and otherwise exactly the action's calls, in order. |
| RecordingPlugin.Dispose | SteamRecording/Plugin.cs:112-122 | The seven subscriptions are removed, and the timeline singleton is cleared. |
| RecordingPlugin.DisposeSilencesAndResets | SteamRecording/Plugin.cs:11-122 | After disposal no event reaches the plugin, and the next acquisition runs the full chain. |
| RecordingPlugin.OnlyLoadingFlagSetsMode | SteamRecording/Plugin.cs:59-85 | Every condition flag except the loading flag is ignored. The loading flag sets LoadingScreen on true and Playing on false. Login sets Playing and logout LoadingScreen. |
| RecordingPlugin.DutyMarkerPriorities | SteamRecording/Plugin.cs:32-57 | Duty start and completion are Featured clips and a wipe has the default None. All three use icon priority 0, offset 0 and the zone as description. |
| RecordingPlugin.AgreesWithDispatcher | SteamRecording/Plugin.cs:32-110 | On every event that both mappers handle (all but the duty flag and zone changes), the older plugin reaches the same state and makes the same calls as the current dispatcher. |
| RecordingPlugin.DeathIffTransitionIntoZero | SteamRecording/Plugin.cs:87-110 | A sample ends in "Death" if and only if the health changed from a known nonzero value to 0, and in nothing otherwise. Every sample records the new value. |
| RecordingPlugin.UnavailableTimelineDropsEveryAction | SteamRecording/Plugin.cs:32-110 | Any scheduled callback whose acquisition fails makes no call and leaves the singleton unset. |

## Left out

- Native calls (`LoadLibraryW`, `GetProcAddress`, delegate marshalling, the
  unmanaged vtable dispatch, `Init`, `GetHSteamUser`, `FindOrCreateUserInterface`)
  are not executed. Their answers are fields of `SteamApi.Env`, and the calls
  appear as trace entries or raw `Call` records.
- The return values of `AddInstantaneousTimelineEvent` and the other
  `nint`-returning wrappers come from the native side and are not modelled.
  Only the call record is.
- UTF-8 encoding is left abstract. Marshalling is modelled at the character
  level as the string followed by one NUL.
- Floats (offsets, durations, time deltas) are opaque 32-bit patterns passed
  through unchanged; `0f` is the all-zero pattern. No float arithmetic
  happens in the source.
- File writes and environment-variable writes are trace entries, not I/O.
  `Path.GetFullPath` resolution against the process path is left out; the
  trace keeps the relative path.
- `RunOnTick` scheduling, threading and the host event bus are left out. A
  handler returns the actions it schedules, and `RunOnTick` runs one action
  against the environment of its tick. The health value is captured when the
  action is scheduled; acquisition and the zone lookup happen when it runs.
- The zone-name lookup through the game's data sheets is an oracle
  `Option<string>`. Its failure yields the empty string.
- Debug logging is left out.
- Acquisition.Get: built on the corrected loader, so where the source's `Get`
  throws out of `LoadSteamApi` (missing restart export) it goes on to `Init`
  and the handshake. `Acquisition.GetAsWritten` models the throwing `Get`, and
  `Dispatcher.RunOnTick` uses the corrected one. (The older plugin's
  `RecordingPlugin.RunOnTick` uses `RecordingAcquisition.Get`, which has no
  loader and so no such difference.) Exceptions from
  `File.WriteAllText` and `Environment.SetEnvironmentVariable` (an unwritable
  app-id file, say) are not modelled either, because the environment record
  gives those effects no failure answer.
- `SteamTimelines/Plugin.cs`, `MainWindow.cs`, `Configuration.cs` and
  `Services.cs` (registration wiring, UI, persistence, service lookup) are not
  part of this model. The argument that `SteamTimelines/Plugin.cs` passes to
  the parameterless `Get` is therefore not modelled either.
- Event arguments no handler reads (territory id, duty id, logout type and
  code) are dropped from `Host.HostEvent`.
- The wrappers no mapper calls (range events, phase ids and attributes,
  overlay, removal, the existence queries) are modelled only through their
  slot, signature and lowering.

## Findings

| source | as written | input that shows it | evidently intended | confidence | as-written member | corrected member |
|---|---|---|---|---|---|---|
| SteamTimelines/SteamTimeline.cs:178-185 | When `SteamAPI_RestartAppIfNecessary` does not resolve, the null address is only logged. It is then still passed to `Marshal.GetDelegateForFunctionPointer`, which throws on a null pointer, so `LoadSteamApi` never reaches `SteamAPI_Init`. | App id 39210; the module loads; `SteamAPI_Init` is exported and succeeds; the restart check is not exported. | The restart check is optional and its answer is ignored, so a missing export should skip the call and loading should continue to `Init`. | medium, not executed | Acquisition.LoadSteamApiAsWritten | Acquisition.LoadSteamApi |
| SteamTimelines/EventDispatcher.cs:140-148 | `Dispose` removes seven of the eight subscriptions the constructor made at lines 11-18. The `TerritoryChanged` handler stays registered. | Construct the dispatcher, dispose it, then change zone: the handler still schedules a tooltip call. | Disposal removes every subscription the constructor made, including `TerritoryChanged`. | high, not executed | Dispatcher.DisposeAsWritten | Dispatcher.Dispose |

=== FILE: acquisition.dfy ===
/** The interface acquisition chain of the current plugin: the memoized
    `SteamTimeline.Get`, its fallback loader `LoadSteamApi` for accounts that
    do not run through Steam, and `Dispose`. The singleton `Instance` is the
    `Option` threaded through `Get` and `Dispose`; every call of `Get`
    returns the singleton it leaves behind. */
module Acquisition {
  import opened Native
  import opened Wrappers
  import opened SteamApi

  /** The app-id side-channel file, relative to the process executable. */
  const AppIdFile: string := "../steam_appid.txt"

  /** The Steam API module, relative to the process executable. */
  const SteamApiModule: string := "../../boot/steam_api64.dll"

  /** The two environment variables the Steam API reads its identity from. */
  const AppIdVariable: string := "SteamAppId"
  const GameIdVariable: string := "SteamGameId"

  /** What `LoadSteamApi` returns (a module handle, null on failure) and the
      effects it performed. */
  datatype Loaded = Loaded(handle: Ptr, trace: seq<Effect>)

  /** The app-id file is written, and only then is the module loaded. */
  function Prelude(appId: uint32): seq<Effect>
  {
    [WriteAllText(AppIdFile, Decimal(appId as nat)), LoadLibraryW(SteamApiModule)]
  }

  /** Both identity variables, set to the decimal app id. */
  function IdentityVariables(appId: uint32): seq<Effect>
  {
    [ SetEnvironmentVariable(AppIdVariable, Decimal(appId as nat)),
      SetEnvironmentVariable(GameIdVariable, Decimal(appId as nat)) ]
  }

  /** Resolving `SteamAPI_RestartAppIfNecessary` and, when it resolves,
      calling it with the app id. Its answer is never looked at. */
  function RestartStep(env: Env, library: Ptr, appId: uint32): seq<Effect>
  {
    [GetProcAddress(library, RestartAppIfNecessarySymbol)]
    + (if Proc(env, library, RestartAppIfNecessarySymbol) == Null then []
       else [CallRestartAppIfNecessary(appId)])
  }

  /** The fallback loader. Without a configured app id it does nothing and
      returns null. Otherwise it writes the app-id file, loads the module,
      and only after a successful load sets the two identity variables,
      calls the restart check (ignoring its answer) and `SteamAPI_Init`;
      a missing `Init` or an `Init` answering 0 makes it return null. */
  function LoadSteamApi(env: Env): (r: Loaded)
    ensures env.nonSteamAppId.None? ==> r == Loaded(Null, [])
    ensures env.nonSteamAppId.Some? ==>
              |r.trace| >= 2 && r.trace[..2] == Prelude(env.nonSteamAppId.value)
    ensures env.nonSteamAppId.Some? && env.loadLibraryResult != Null ==>
              |r.trace| >= 4 && r.trace[2..4] == IdentityVariables(env.nonSteamAppId.value)
    ensures env.loadLibraryResult == Null ==>
              forall e | e in r.trace :: !e.SetEnvironmentVariable? && !e.CallInit?
    ensures r.handle != Null <==>
              && env.nonSteamAppId.Some?
              && env.loadLibraryResult != Null
              && Proc(env, env.loadLibraryResult, InitSymbol) != Null
              && env.initResult != Null
    ensures r.handle != Null ==>
              r.handle == env.loadLibraryResult && r.trace[|r.trace| - 1] == CallInit
    ensures env.nonSteamAppId.Some? && env.loadLibraryResult == Null ==>
              r.trace == Prelude(env.nonSteamAppId.value)
    ensures env.nonSteamAppId.Some? && env.loadLibraryResult != Null ==>
              var library := env.loadLibraryResult;
              var restarts := Proc(env, library, RestartAppIfNecessarySymbol) != Null;
              var k := if restarts then 6 else 5;
              && |r.trace| == k + (if Proc(env, library, InitSymbol) != Null then 2 else 1)
              && r.trace[4] == GetProcAddress(library, RestartAppIfNecessarySymbol)
              && (restarts ==> r.trace[5] == CallRestartAppIfNecessary(env.nonSteamAppId.value))
              && r.trace[k] == GetProcAddress(library, InitSymbol)
              && (Proc(env, library, InitSymbol) != Null ==> r.trace[k + 1] == CallInit)
  {
    match env.nonSteamAppId
    case None => Loaded(Null, [])
    case Some(appId) =>
      var library := env.loadLibraryResult;
      if library == Null then
        Loaded(Null, Prelude(appId))
      else
        var beforeInit := Prelude(appId) + IdentityVariables(appId)
                          + RestartStep(env, library, appId)
                          + [GetProcAddress(library, InitSymbol)];
        if Proc(env, library, InitSymbol) == Null then
          Loaded(Null, beforeInit)
        else if env.initResult == Null then
          Loaded(Null, beforeInit + [CallInit])
        else
          Loaded(library, beforeInit + [CallInit])
  }

  /** The host already holds an initialized Steam API. */
  predicate HostHandleUsable(env: Env)
  {
    env.framework.Some? && env.framework.value.steamApiInitialized
  }

  /** The module handle `Get` works with: the host's when the host reports
      the Steam API initialized, the fallback loader's otherwise. */
  function ModuleHandle(env: Env): (r: Loaded)
    ensures HostHandleUsable(env) ==> r.trace == [] && r.handle == env.framework.value.steamApiLibraryHandle
    ensures !HostHandleUsable(env) && env.nonSteamAppId.None? ==> r == Loaded(Null, [])
    ensures !HostHandleUsable(env) && r.handle != Null ==>
              r.handle == env.loadLibraryResult && |r.trace| > 0 && r.trace[|r.trace| - 1] == CallInit
    ensures !HostHandleUsable(env) && env.nonSteamAppId.Some? ==>
              |r.trace| >= 2 && r.trace[..2] == Prelude(env.nonSteamAppId.value)
  {
    if HostHandleUsable(env) then Loaded(env.framework.value.steamApiLibraryHandle, [])
    else LoadSteamApi(env)
  }

  /** `SteamTimeline.Get`. A set singleton is returned with no further work.
      Otherwise the chain runs, and the singleton is set exactly when it
      succeeds, to the interface it returns; a failure leaves it unset. */
  function Get(instance: Option<NonNullPtr>, env: Env): (r: Acquired)
    ensures instance.Some? ==> r == Acquired(Success(instance.value), instance, [])
    ensures r.result.Success? ==> r.instance == Some(r.result.value)
    ensures r.result.Failure? ==> r.instance.None?
    ensures instance.None? && r.result.Success? ==>
              r.result.value == RequestedInterface(env)
              && VTableOf(env, r.result.value) != Null
  {
    if instance.Some? then
      Acquired(Success(instance.value), instance, [])
    else if env.framework.None? && env.nonSteamAppId.None? then
      Acquired(Failure(FrameworkNull), None, [])
    else
      AfterLoad(env, ModuleHandle(env))
  }

  /** The rest of `Get` once a module handle is in hand: a null handle gives
      up, otherwise the handshake runs on it after the loading effects, and
      the singleton is set exactly when it succeeds. */
  function AfterLoad(env: Env, loaded: Loaded): (r: Acquired)
    ensures r.result.Success? ==> r.instance == Some(r.result.value)
    ensures r.result.Failure? ==> r.instance.None?
    ensures r.result.Success? <==> loaded.handle != Null && HandshakeSucceeds(env, loaded.handle)
    ensures loaded.handle == Null ==> r == Acquired(Failure(LibraryHandleNull), None, loaded.trace)
    ensures loaded.handle != Null ==>
              && loaded.trace <= r.trace
              && r.trace <= loaded.trace + FullHandshakeTrace(loaded.handle, env.steamUser)
              && r.result != Failure(LibraryHandleNull)
              && r.result == Handshake(env, loaded.handle).result
              && r.trace == loaded.trace + Handshake(env, loaded.handle).trace
    ensures r.result.Success? ==>
              && r.result.value == RequestedInterface(env)
              && r.trace == loaded.trace + FullHandshakeTrace(loaded.handle, env.steamUser)
  {
    if loaded.handle == Null then
      Acquired(Failure(LibraryHandleNull), None, loaded.trace)
    else
      var shake := Handshake(env, loaded.handle);
      PrefixUnderConcat(loaded.trace, shake.trace, FullHandshakeTrace(loaded.handle, env.steamUser));
      Acquired(shake.result, shake.result.ToOption(), loaded.trace + shake.trace)
  }

  /** Prefixes survive a common front. */
  lemma PrefixUnderConcat<T>(front: seq<T>, a: seq<T>, b: seq<T>)
    requires a <= b
    ensures front <= front + a
    ensures front + a <= front + b
  {
    assert (front + a)[..|front|] == front;
    assert (front + b)[..|front + a|] == front + a by {
      assert b[..|a|] == a;
    }
  }

  /** `SteamTimeline.Dispose`: the singleton is cleared. */
  function Dispose(instance: Option<NonNullPtr>): (r: Option<NonNullPtr>)
    ensures r.None?
  {
    None
  }

  /** With no singleton, `Get` gives up before any effect exactly when there
      is neither a framework nor a configured app id. */
  lemma GetFrameworkGate(env: Env)
    ensures Get(None, env).result == Failure(FrameworkNull) <==>
              env.framework.None? && env.nonSteamAppId.None?
    ensures env.framework.None? && env.nonSteamAppId.None? ==> Get(None, env).trace == []
  {
    var r := Get(None, env);
    if !(env.framework.None? && env.nonSteamAppId.None?) {
      var loaded := ModuleHandle(env);
      if loaded.handle != Null {
        assert r.result == Handshake(env, loaded.handle).result;
      }
    }
  }

  /** With the framework present and reporting the Steam API initialized,
      the host's handle is used and nothing of the fallback loader happens;
      a null host handle then fails before any effect. */
  lemma GetUsesHostHandle(env: Env)
    requires HostHandleUsable(env)
    ensures forall e | e in Get(None, env).trace :: !IsLoaderEffect(e)
    ensures env.framework.value.steamApiLibraryHandle == Null ==>
              Get(None, env) == Acquired(Failure(LibraryHandleNull), None, [])
  {
    var h := env.framework.value.steamApiLibraryHandle;
    if h != Null {
      var shake := Handshake(env, h);
      assert Get(None, env).trace == shake.trace;
      forall e | e in shake.trace
        ensures !IsLoaderEffect(e)
      {
        assert e in FullHandshakeTrace(h, env.steamUser);
      }
    }
  }

  /** Otherwise the fallback loader runs: with an app id configured, the
      app-id file is written and the module loaded before anything else;
      without one, the loader does nothing and `Get` fails with no effect. */
  lemma GetFallsBackToLoader(env: Env)
    requires !HostHandleUsable(env)
    ensures env.nonSteamAppId.Some? ==>
              |Get(None, env).trace| >= 2
              && Get(None, env).trace[..2] == Prelude(env.nonSteamAppId.value)
    ensures env.nonSteamAppId.None? ==>
              Get(None, env).result.Failure? && Get(None, env).trace == []
  {
    if env.nonSteamAppId.Some? {
      var r := Get(None, env);
      var loaded := LoadSteamApi(env);
      assert ModuleHandle(env) == loaded;
      assert r.trace[..|loaded.trace|] == loaded.trace;
      assert r.trace[..2] == loaded.trace[..2];
    }
  }

  /** With no singleton and the framework gate passed, `Get` is the module
      handle choice followed by the handshake on that handle: it succeeds
      exactly when the handle is non-null and the handshake's checks pass,
      its result is the handshake's and its effects are the handle
      choice's followed by the handshake's, and on the fallback path a
      success has performed the whole loader and then the whole handshake
      on the loaded module. */
  lemma GetRunsLoaderThenHandshake(env: Env)
    requires env.framework.Some? || env.nonSteamAppId.Some?
    ensures var m := ModuleHandle(env);
      var r := Get(None, env);
      && (r.result.Success? <==> m.handle != Null && HandshakeSucceeds(env, m.handle))
      && (r.result == Failure(LibraryHandleNull) <==> m.handle == Null)
      && (m.handle == Null ==> r.trace == m.trace)
      && (m.handle != Null ==>
            && m.trace <= r.trace && r.trace <= m.trace + FullHandshakeTrace(m.handle, env.steamUser)
            && r.result == Handshake(env, m.handle).result
            && r.trace == m.trace + Handshake(env, m.handle).trace)
      && (r.result.Success? ==> r.trace == m.trace + FullHandshakeTrace(m.handle, env.steamUser))
    ensures Get(None, env).result.Success? && !HostHandleUsable(env) ==>
              Get(None, env).trace
              == LoadSteamApi(env).trace + FullHandshakeTrace(env.loadLibraryResult, env.steamUser)
  {
    assert Get(None, env) == AfterLoad(env, ModuleHandle(env));
  }

  /** Success is memoized and failure is not: after a successful `Get`, any
      later `Get` returns the same interface with no effect at all, whatever
      the environment has become; after a failed one, the next `Get` runs the
      whole chain again from scratch. */
  lemma GetMemoizesSuccessOnly(env: Env, later: Env)
    ensures var first := Get(None, env);
      first.result.Success? ==>
        Get(first.instance, later) == Acquired(first.result, first.instance, [])
    ensures var first := Get(None, env);
      first.result.Failure? ==> Get(first.instance, later) == Get(None, later)
  {
  }

  /** After `Dispose` the next `Get` re-runs the full chain. */
  lemma DisposeForcesReacquire(instance: Option<NonNullPtr>, env: Env)
    ensures Get(Dispose(instance), env) == Get(None, env)
  {
  }

  // -----------------------------------------------------------------------
  // The loader as written: a missing restart symbol throws
  // -----------------------------------------------------------------------

  /** `LoadSteamApi` either returns or throws out of the marshalling call. */
  datatype LoadOutcome = Returned(loaded: Loaded) | Threw(trace: seq<Effect>)

  /** The loader exactly as written: when `SteamAPI_RestartAppIfNecessary`
      does not resolve, the null address is logged and then still handed to
      `Marshal.GetDelegateForFunctionPointer`, which throws on a null
      pointer, so the loader never reaches `SteamAPI_Init`. */
  function LoadSteamApiAsWritten(env: Env): (r: LoadOutcome)
    ensures r.Threw? <==>
              && env.nonSteamAppId.Some?
              && env.loadLibraryResult != Null
              && Proc(env, env.loadLibraryResult, RestartAppIfNecessarySymbol) == Null
    ensures r.Threw? ==>
              r.trace == Prelude(env.nonSteamAppId.value) + IdentityVariables(env.nonSteamAppId.value)
                         + [GetProcAddress(env.loadLibraryResult, RestartAppIfNecessarySymbol)]
  {
    match env.nonSteamAppId
    case None => Returned(LoadSteamApi(env))
    case Some(appId) =>
      var library := env.loadLibraryResult;
      if library != Null && Proc(env, library, RestartAppIfNecessarySymbol) == Null then
        Threw(Prelude(appId) + IdentityVariables(appId)
              + [GetProcAddress(library, RestartAppIfNecessarySymbol)])
      else
        Returned(LoadSteamApi(env))
  }

  /** Two environments that differ at most in the restart check: whether its
      symbol resolves and what it answers. */
  ghost predicate SameExceptRestart(e1: Env, e2: Env)
  {
    && e1.(exports := map[], restartResult := 0) == e2.(exports := map[], restartResult := 0)
    && forall library: Ptr, symbol: string | symbol != RestartAppIfNecessarySymbol ::
         Proc(e1, library, symbol) == Proc(e2, library, symbol)
  }

  /** The intended behaviour, which the corrected loader has: the restart
      check never decides whether loading succeeds. */
  lemma RestartNeverDecidesLoad(e1: Env, e2: Env)
    requires SameExceptRestart(e1, e2)
    ensures LoadSteamApi(e1).handle == LoadSteamApi(e2).handle
  {
    var z1 := e1.(exports := map[], restartResult := 0);
    var z2 := e2.(exports := map[], restartResult := 0);
    assert z1.nonSteamAppId == e1.nonSteamAppId && z2.nonSteamAppId == e2.nonSteamAppId;
    assert z1.loadLibraryResult == e1.loadLibraryResult && z2.loadLibraryResult == e2.loadLibraryResult;
    assert z1.initResult == e1.initResult && z2.initResult == e2.initResult;
    assert Proc(e1, e1.loadLibraryResult, InitSymbol) == Proc(e2, e2.loadLibraryResult, InitSymbol);
  }

  /** When the restart symbol resolves, the loader as written and the
      corrected one behave identically. */
  lemma AsWrittenAgreesWhenRestartResolves(env: Env)
    requires Proc(env, env.loadLibraryResult, RestartAppIfNecessarySymbol) != Null
    ensures LoadSteamApiAsWritten(env) == Returned(LoadSteamApi(env))
  {
  }

  /** What `SteamTimeline.Get` as written does: it answers, or the loader
      throws out of it. */
  datatype GetOutcome = Answered(acquired: Acquired) | GetThrew(thrownTrace: seq<Effect>)

  /** `SteamTimeline.Get` built on the loader as written: on the fallback
      path a missing restart export makes the whole call throw, with the
      effects performed up to the failing marshalling call. Wherever it does
      not throw it answers exactly what the corrected `Get` answers. */
  function GetAsWritten(instance: Option<NonNullPtr>, env: Env): (r: GetOutcome)
    ensures r.GetThrew? <==>
              instance.None? && !HostHandleUsable(env) && LoadSteamApiAsWritten(env).Threw?
    ensures r.Answered? ==> r.acquired == Get(instance, env)
    ensures r.GetThrew? ==>
              && |r.thrownTrace| >= 2
              && r.thrownTrace[..2] == Prelude(env.nonSteamAppId.value)
              && CallInit !in r.thrownTrace
              && CallGetHSteamUser !in r.thrownTrace
    ensures r.GetThrew? ==>
              r.thrownTrace
              == Prelude(env.nonSteamAppId.value) + IdentityVariables(env.nonSteamAppId.value)
                 + [GetProcAddress(env.loadLibraryResult, RestartAppIfNecessarySymbol)]
  {
    if instance.Some? then Answered(Acquired(Success(instance.value), instance, []))
    else if env.framework.None? && env.nonSteamAppId.None? then
      Answered(Acquired(Failure(FrameworkNull), None, []))
    else if HostHandleUsable(env) then
      Answered(AfterLoad(env, Loaded(env.framework.value.steamApiLibraryHandle, [])))
    else
      match LoadSteamApiAsWritten(env)
      case Threw(trace) => GetThrew(trace)
      case Returned(loaded) => Answered(AfterLoad(env, loaded))
  }

  /** An app id is configured, the module loads and `SteamAPI_Init` exists
      and succeeds, but the module does not export the restart check. */
  function RestartlessEnv(): Env
  {
    Env(None, Some(39210), 7, map[(7, InitSymbol) := 9], 0, 1, 0, map[], map[])
  }

  /** The same environment with the restart check exported. */
  function RestartingEnv(): Env
  {
    RestartlessEnv().(exports := map[(7, InitSymbol) := 9, (7, RestartAppIfNecessarySymbol) := 8])
  }

  /** The loader as written throws on an environment where the corrected
      loader succeeds, and on the otherwise identical environment that does
      export the restart check it succeeds: as written, the restart check
      decides whether loading succeeds. */
  lemma AsWrittenRestartDecidesLoad()
    ensures SameExceptRestart(RestartlessEnv(), RestartingEnv())
    ensures LoadSteamApiAsWritten(RestartlessEnv()).Threw?
    ensures LoadSteamApiAsWritten(RestartingEnv()).Returned?
    ensures LoadSteamApiAsWritten(RestartingEnv()).loaded.handle == 7
    ensures LoadSteamApi(RestartlessEnv()).handle == 7
    ensures GetAsWritten(Option.None, RestartlessEnv()).GetThrew?
    ensures CallInit in Get(Option.None, RestartlessEnv()).trace
  {
    var e1 := RestartlessEnv();
    var e2 := RestartingEnv();
    forall library: Ptr, symbol: string | symbol != RestartAppIfNecessarySymbol
      ensures Proc(e1, library, symbol) == Proc(e2, library, symbol)
    {
      assert (library, symbol) in e1.exports <==> (library, symbol) in e2.exports;
    }
    assert Proc(e1, 7, RestartAppIfNecessarySymbol) == Null;
    assert Proc(e2, 7, RestartAppIfNecessarySymbol) == 8;
    assert Proc(e1, 7, InitSymbol) == 9;
    assert Proc(e2, 7, InitSymbol) == 9;
  }
}

=== FILE: dispatcher.dfy ===
/** The current plugin's event mapper, `EventDispatcher`: a state machine
    whose only state is the last observed health value. Each host event
    handler either updates that state or schedules one action for the next
    framework tick; the action, when it runs, acquires the timeline and, if
    it is available, issues its wrapper calls. */
module Dispatcher {
  import opened Native
  import opened Wrappers
  import opened Host
  import opened Timeline
  import SteamApi
  import Acquisition
  import VTable

  datatype State = State(lastHealth: Option<uint32>)

  /** The state of a newly constructed dispatcher. */
  const Fresh: State := State(Option.None)

  /** What a handler does with one event: the next state and the actions it
      schedules, in order. */
  datatype Step = Step(state: State, queued: seq<Action>)

  /** The host event handlers. */
  function Handle(s: State, e: HostEvent): (r: Step)
    ensures !e.FrameworkUpdate? ==> r.state == s
    ensures |r.queued| <= 1
    ensures e.ConditionChange? && e.flag.OtherFlag? ==> r.queued == []
  {
    match e
    case DutyStarted => Step(s, [DutyStartedTick])
    case DutyWiped => Step(s, [DutyWipedTick])
    case DutyCompleted => Step(s, [DutyCompletedTick])
    case ConditionChange(flag, value) =>
      (match flag
       case BetweenAreas => Step(s, [BetweenAreasTick(value)])
       case BoundByDuty => Step(s, [BoundByDutyTick(value)])
       case OtherFlag(_) => Step(s, []))
    case Login => Step(s, [LoginTick])
    case Logout => Step(s, [LogoutTick])
    case FrameworkUpdate(health) =>
      if health.None? then Step(s, [])
      else
        var h := health.value;
        if s.lastHealth.None? then Step(State(Some(h)), [])
        else if s.lastHealth.value != h then Step(State(Some(h)), [HealthTick(h)])
        else Step(s, [])
    case TerritoryChanged => Step(s, [TerritoryTick])
  }

  /** The marker for a death in `zone`. */
  function Death(zone: string): Request
  {
    Instant("Death", zone, "steam_death", DefaultClip)
  }

  /** The wrapper calls a scheduled action makes once the timeline is
      available. `zone` is the zone string at tick time; `tagPriority` is the
      priority given to the duty tag. */
  function Perform(a: Action, zone: string, tagPriority: uint32): (rs: seq<Request>)
    ensures |rs| <= 2
    ensures rs == [] <==> a.HealthTick? && a.health != 0
    ensures |rs| == 2 <==> a == BoundByDutyTick(true)
    ensures forall r | r in rs :: r.AddInstantaneousTimelineEvent? ==>
              && r.description == zone && r.iconPriority == 0
              && r.startOffsetSeconds == ZeroSeconds && r.possibleClip != ClipPriority.Invalid
    ensures forall r | r in rs :: r.SetTimelineGameMode? ==>
              r.mode == GameMode.Playing || r.mode == GameMode.LoadingScreen
  {
    match a
    case DutyStartedTick => [Instant("Duty Started", zone, "steam_combat", ClipPriority.Featured)]
    case DutyWipedTick => [Instant("Duty Wipe", zone, "steam_x", DefaultClip)]
    case DutyCompletedTick => [Instant("Duty Completed", zone, "steam_crown", ClipPriority.Featured)]
    case BetweenAreasTick(value) =>
      [SetTimelineGameMode(if value then GameMode.LoadingScreen else GameMode.Playing)]
    case BoundByDutyTick(value) =>
      if value then [StartGamePhase, AddGamePhaseTag(zone, "steam_attack", "Duty", tagPriority)]
      else [EndGamePhase]
    case LoginTick => [SetTimelineGameMode(GameMode.Playing)]
    case LogoutTick => [SetTimelineGameMode(GameMode.LoadingScreen)]
    case HealthTick(health) => if health == 0 then [Death(zone)] else []
    case TerritoryTick => [Tooltip(zone)]
  }

  /** The wrapper calls of a queue of actions, all run with the timeline
      available. */
  function Emitted(queued: seq<Action>, zone: string, tagPriority: uint32): seq<Request>
    decreases |queued|
  {
    if |queued| == 0 then []
    else Perform(queued[0], zone, tagPriority) + Emitted(queued[1..], zone, tagPriority)
  }

  lemma EmittedSingle(a: Action, zone: string, tagPriority: uint32)
    ensures Emitted([a], zone, tagPriority) == Perform(a, zone, tagPriority)
  {
    assert [a][1..] == [];
  }

  /** One scheduled action running on a tick: the singleton afterwards, the
      acquisition effects, and the raw calls made through the vtable. */
  datatype Tick = Tick(instance: Option<NonNullPtr>, trace: seq<SteamApi.Effect>,
                       calls: seq<Call>)

  /** What a scheduled action does once `SteamTimeline.Get` has answered:
      nothing if it failed, otherwise the action's wrapper calls, in order,
      on the interface it returned. */
  function Apply(acquired: SteamApi.Acquired, requests: seq<Request>): (r: Tick)
    ensures r.instance == acquired.instance && r.trace == acquired.trace
    ensures acquired.result.Failure? ==> r.calls == []
    ensures acquired.result.Success? ==>
              && |r.calls| == |requests|
              && forall i :: 0 <= i < |requests| ==>
                   r.calls[i] == Lower(acquired.result.value, requests[i])
  {
    match acquired.result
    case Failure(_) => Tick(acquired.instance, acquired.trace, [])
    case Success(tl) =>
      var calls := IssueAll([], tl, requests);
      Tick(acquired.instance, acquired.trace, calls)
  }

  /** Runs a scheduled action: `SteamTimeline.Get`, then, only if it returned
      an interface, the action's wrapper calls on that interface. */
  function RunOnTick(a: Action, instance: Option<NonNullPtr>, env: SteamApi.Env,
                     zoneLookup: Option<string>, tagPriority: uint32): (r: Tick)
    ensures r.instance == Acquisition.Get(instance, env).instance
    ensures r.trace == Acquisition.Get(instance, env).trace
    ensures Acquisition.Get(instance, env).result.Failure? ==> r.calls == []
    ensures Acquisition.Get(instance, env).result.Success? ==>
              var requests := Perform(a, ZoneString(zoneLookup), tagPriority);
              && |r.calls| == |requests|
              && forall i :: 0 <= i < |requests| ==>
                   r.calls[i] == Lower(Acquisition.Get(instance, env).result.value, requests[i])
  {
    Apply(Acquisition.Get(instance, env), Perform(a, ZoneString(zoneLookup), tagPriority))
  }

  // -----------------------------------------------------------------------
  // Subscriptions
  // -----------------------------------------------------------------------

  /** The sources the constructor subscribes to: all eight. */
  const Subscribed: set<EventSource> := AllSources

  /** Delivers an event to the dispatcher if it is subscribed to its source. */
  function Deliver(subs: set<EventSource>, s: State, e: HostEvent): Step
  {
    if SourceOf(e) in subs then Handle(s, e) else Step(s, [])
  }

  /** `Dispose` as written: seven unsubscriptions; the territory-change
      handler stays subscribed. */
  function DisposeAsWritten(subs: set<EventSource>): (r: set<EventSource>)
    ensures r <= subs
    ensures TerritoryChangedSource in subs ==> TerritoryChangedSource in r
  {
    subs - { DutyStartedSource, DutyWipedSource, DutyCompletedSource, ConditionChangeSource,
             LoginSource, LogoutSource, UpdateSource }
  }

  /** `Dispose` as intended: every source the constructor subscribed to is
      unsubscribed again. */
  function Dispose(subs: set<EventSource>): (r: set<EventSource>)
    ensures r <= subs
    ensures forall src | src in r :: src !in Subscribed
  {
    subs - Subscribed
  }

  /** As written, disposal leaves the territory-change handler live: a zone
      change after disposal still schedules a tooltip call. */
  lemma DisposeAsWrittenLeavesTerritoryHandler(s: State)
    ensures DisposeAsWritten(Subscribed) == {TerritoryChangedSource}
    ensures Deliver(DisposeAsWritten(Subscribed), s, TerritoryChanged) == Step(s, [TerritoryTick])
  {
    assert TerritoryChangedSource in DisposeAsWritten(Subscribed);
  }

  /** After the intended disposal no event reaches the dispatcher any more. */
  lemma DisposeSilencesEveryEvent(s: State, e: HostEvent)
    ensures Dispose(Subscribed) == {}
    ensures Deliver(Dispose(Subscribed), s, e) == Step(s, [])
  {
  }

  // -----------------------------------------------------------------------
  // Health edge detection
  // -----------------------------------------------------------------------

  /** One health sample: no local player leaves everything as it is; the
      first sample only seeds the state; a sample equal to the last one
      (including 0 after 0) does nothing; a changed sample records the new
      value and schedules exactly one health action carrying it. */
  lemma HealthSampleStep(s: State, sample: Option<uint32>)
    ensures sample.None? ==> Handle(s, FrameworkUpdate(sample)) == Step(s, [])
    ensures sample.Some? && s.lastHealth.None? ==>
              Handle(s, FrameworkUpdate(sample)) == Step(State(sample), [])
    ensures sample.Some? && s.lastHealth == sample ==>
              Handle(s, FrameworkUpdate(sample)) == Step(s, [])
    ensures sample.Some? && s.lastHealth.Some? && s.lastHealth != sample ==>
              Handle(s, FrameworkUpdate(sample)) == Step(State(sample), [HealthTick(sample.value)])
    ensures sample.Some? ==> Handle(s, FrameworkUpdate(sample)).state.lastHealth == sample
  {
  }

  /** A health sample ends in a "Death" marker if and only if the health
      changed from a known nonzero value to 0; otherwise it ends in no call
      at all (in particular, leaving 0 emits nothing). */
  lemma DeathIffTransitionIntoZero(s: State, h: uint32, zone: string, tagPriority: uint32)
    ensures var calls := Emitted(Handle(s, FrameworkUpdate(Some(h))).queued, zone, tagPriority);
      && (calls == [Death(zone)] <==> s.lastHealth.Some? && s.lastHealth.value != 0 && h == 0)
      && (calls == [] || calls == [Death(zone)])
  {
    var step := Handle(s, FrameworkUpdate(Some(h)));
    if s.lastHealth.Some? && s.lastHealth.value != h {
      assert step.queued == [HealthTick(h)];
      assert Emitted(step.queued, zone, tagPriority) == Perform(HealthTick(h), zone, tagPriority);
    } else {
      assert step.queued == [];
    }
  }

  /** The calls each sample of a run of health samples ends in, with the
      timeline available on every tick: one call list per sample. What each
      list holds, a "Death" marker exactly on a transition into 0 and
      nothing otherwise, is proved by induction in `DeathOncePerRunOfZeros`. */
  function ReplayHealth(s: State, xs: seq<uint32>, zone: string, tagPriority: uint32)
    : (out: seq<seq<Request>>)
    ensures |out| == |xs|
    decreases |xs|
  {
    if |xs| == 0 then []
    else
      var step := Handle(s, FrameworkUpdate(Some(xs[0])));
      [Emitted(step.queued, zone, tagPriority)] + ReplayHealth(step.state, xs[1..], zone, tagPriority)
  }

  /** The value observed just before sample `i`. */
  function Previous(first: Option<uint32>, xs: seq<uint32>, i: nat): Option<uint32>
    requires i < |xs|
  {
    if i == 0 then first else Some(xs[i - 1])
  }

  /** Over any run of samples, sample `i` ends in a "Death" marker exactly
      when the value observed before it was nonzero and it is 0, and in no
      call otherwise: one marker per maximal run of zeros, on its first
      sample, and none for a run that the very first sample starts. */
  lemma {:induction false} DeathOncePerRunOfZeros(s: State, xs: seq<uint32>, zone: string,
                                                  tagPriority: uint32)
    ensures var out := ReplayHealth(s, xs, zone, tagPriority);
      forall i | 0 <= i < |xs| ::
        && (out[i] == [Death(zone)] <==>
              Previous(s.lastHealth, xs, i).Some? && Previous(s.lastHealth, xs, i).value != 0
              && xs[i] == 0)
        && (out[i] == [] || out[i] == [Death(zone)])
    decreases |xs|
  {
    if |xs| > 0 {
      var step := Handle(s, FrameworkUpdate(Some(xs[0])));
      var out := ReplayHealth(s, xs, zone, tagPriority);
      var rest := ReplayHealth(step.state, xs[1..], zone, tagPriority);
      assert out == [Emitted(step.queued, zone, tagPriority)] + rest;
      DeathIffTransitionIntoZero(s, xs[0], zone, tagPriority);
      HealthSampleStep(s, Some(xs[0]));
      DeathOncePerRunOfZeros(step.state, xs[1..], zone, tagPriority);
      forall i | 1 <= i < |xs|
        ensures out[i] == rest[i - 1]
        ensures Previous(s.lastHealth, xs, i) == Previous(step.state.lastHealth, xs[1..], i - 1)
      {
      }
    }
  }

  /** The health sequence 100, 100, 0, 0, 50 in a fresh dispatcher yields
      exactly one "Death", on the third sample. */
  lemma DeathScenario(zone: string, tagPriority: uint32)
    ensures ReplayHealth(Fresh, [100, 100, 0, 0, 50], zone, tagPriority)
            == [[], [], [Death(zone)], [], []]
  {
    var xs: seq<uint32> := [100, 100, 0, 0, 50];
    var out := ReplayHealth(Fresh, xs, zone, tagPriority);
    DeathOncePerRunOfZeros(Fresh, xs, zone, tagPriority);
    assert Previous(Fresh.lastHealth, xs, 2) == Some(100);
    assert Previous(Fresh.lastHealth, xs, 3) == Some(0);
  }

  // -----------------------------------------------------------------------
  // Condition flags, login and logout
  // -----------------------------------------------------------------------

  /** Loading transitions, login and logout set the game mode: entering a
      loading screen or logging out selects LoadingScreen, leaving one or
      logging in selects Playing. */
  lemma GameModeEvents(s: State, value: bool, zone: string, tagPriority: uint32)
    ensures Emitted(Handle(s, ConditionChange(BetweenAreas, value)).queued, zone, tagPriority)
            == [SetTimelineGameMode(if value then GameMode.LoadingScreen else GameMode.Playing)]
    ensures Emitted(Handle(s, Login).queued, zone, tagPriority)
            == [SetTimelineGameMode(GameMode.Playing)]
    ensures Emitted(Handle(s, Logout).queued, zone, tagPriority)
            == [SetTimelineGameMode(GameMode.LoadingScreen)]
  {
  }

  /** Entering a duty opens a game phase and then tags it with the zone;
      leaving one only closes the phase; any other flag does nothing. */
  lemma DutyPhaseEvents(s: State, value: bool, id: nat, zone: string, tagPriority: uint32)
    ensures Emitted(Handle(s, ConditionChange(BoundByDuty, true)).queued, zone, tagPriority)
            == [StartGamePhase, AddGamePhaseTag(zone, "steam_attack", "Duty", tagPriority)]
    ensures Emitted(Handle(s, ConditionChange(BoundByDuty, false)).queued, zone, tagPriority)
            == [EndGamePhase]
    ensures Emitted(Handle(s, ConditionChange(OtherFlag(id), value)).queued, zone, tagPriority) == []
  {
  }

  /** Duty start and completion are featured clips; a wipe uses the default
      clip priority. All three markers use icon priority 0 and offset 0 and
      describe the current zone. */
  lemma DutyMarkerEvents(s: State, zone: string, tagPriority: uint32)
    ensures Emitted(Handle(s, DutyStarted).queued, zone, tagPriority)
            == [AddInstantaneousTimelineEvent("Duty Started", zone, "steam_combat", 0,
                                              ZeroSeconds, ClipPriority.Featured)]
    ensures Emitted(Handle(s, DutyWiped).queued, zone, tagPriority)
            == [AddInstantaneousTimelineEvent("Duty Wipe", zone, "steam_x", 0,
                                              ZeroSeconds, ClipPriority.None)]
    ensures Emitted(Handle(s, DutyCompleted).queued, zone, tagPriority)
            == [AddInstantaneousTimelineEvent("Duty Completed", zone, "steam_crown", 0,
                                              ZeroSeconds, ClipPriority.Featured)]
    ensures Emitted(Handle(s, TerritoryChanged).queued, zone, tagPriority)
            == [SetTimelineTooltip(zone, ZeroSeconds)]
  {
  }

  /** The calls a run of changes of one condition flag ends in, with the
      timeline available on every tick. */
  function ReplayFlag(s: State, flag: ConditionFlag, vs: seq<bool>, zone: string,
                      tagPriority: uint32): seq<Request>
    decreases |vs|
  {
    if |vs| == 0 then []
    else
      var step := Handle(s, ConditionChange(flag, vs[0]));
      Emitted(step.queued, zone, tagPriority) + ReplayFlag(step.state, flag, vs[1..], zone, tagPriority)
  }

  /** The phase boundaries among a list of calls: true for a start, false
      for an end. */
  function PhaseMarks(rs: seq<Request>): seq<bool>
    decreases |rs|
  {
    if |rs| == 0 then []
    else
      (if rs[0].StartGamePhase? then [true] else if rs[0].EndGamePhase? then [false] else [])
      + PhaseMarks(rs[1..])
  }

  lemma {:induction false} PhaseMarksAppend(a: seq<Request>, b: seq<Request>)
    ensures PhaseMarks(a + b) == PhaseMarks(a) + PhaseMarks(b)
    decreases |a|
  {
    if |a| > 0 {
      var head := if a[0].StartGamePhase? then [true] else if a[0].EndGamePhase? then [false] else [];
      assert (a + b)[0] == a[0];
      assert (a + b)[1..] == a[1..] + b;
      assert PhaseMarks(a + b) == head + PhaseMarks(a[1..] + b);
      PhaseMarksAppend(a[1..], b);
      assert PhaseMarks(a) == head + PhaseMarks(a[1..]);
    } else {
      assert a + b == b;
    }
  }

  /** The dispatcher keeps no phase state: the phase boundaries it emits
      are exactly the duty flag's values, one start per true and one end per
      false, in order. They pair up start-before-end exactly when the host
      delivers the flag alternating from true. */
  lemma {:induction false} PhaseMarksFollowDutyFlag(s: State, vs: seq<bool>, zone: string,
                                                    tagPriority: uint32)
    ensures PhaseMarks(ReplayFlag(s, BoundByDuty, vs, zone, tagPriority)) == vs
    decreases |vs|
  {
    if |vs| > 0 {
      var step := Handle(s, ConditionChange(BoundByDuty, vs[0]));
      var now := Emitted(step.queued, zone, tagPriority);
      EmittedSingle(BoundByDutyTick(vs[0]), zone, tagPriority);
      PhaseMarksAppend(now, ReplayFlag(step.state, BoundByDuty, vs[1..], zone, tagPriority));
      PhaseMarksFollowDutyFlag(step.state, vs[1..], zone, tagPriority);
      if vs[0] {
        assert now == [StartGamePhase, AddGamePhaseTag(zone, "steam_attack", "Duty", tagPriority)];
        assert PhaseMarks(now) == [true];
      } else {
        assert now == [EndGamePhase];
      }
      assert [vs[0]] + vs[1..] == vs;
    }
  }

  /** The game mode a loading-screen flag value selects. */
  function ModeFor(value: bool): GameMode
  {
    if value then GameMode.LoadingScreen else GameMode.Playing
  }

  /** A run of loading-screen flag changes yields one mode call per change,
      each selecting the mode for that value; so two consecutive calls carry
      the same mode exactly when the flag repeated a value. */
  lemma {:induction false} ModesFollowLoadingFlag(s: State, vs: seq<bool>, zone: string,
                                                  tagPriority: uint32)
    ensures var rs := ReplayFlag(s, BetweenAreas, vs, zone, tagPriority);
      && |rs| == |vs|
      && (forall i | 0 <= i < |vs| :: rs[i] == SetTimelineGameMode(ModeFor(vs[i])))
      && (forall i | 0 <= i < |vs| - 1 :: rs[i] == rs[i + 1] <==> vs[i] == vs[i + 1])
    decreases |vs|
  {
    var rs := ReplayFlag(s, BetweenAreas, vs, zone, tagPriority);
    if |vs| > 0 {
      var step := Handle(s, ConditionChange(BetweenAreas, vs[0]));
      var rest := ReplayFlag(step.state, BetweenAreas, vs[1..], zone, tagPriority);
      assert Emitted(step.queued, zone, tagPriority) == [SetTimelineGameMode(ModeFor(vs[0]))];
      assert rs == [SetTimelineGameMode(ModeFor(vs[0]))] + rest;
      ModesFollowLoadingFlag(step.state, vs[1..], zone, tagPriority);
      forall i | 0 <= i < |vs|
        ensures rs[i] == SetTimelineGameMode(ModeFor(vs[i]))
      {
        if i > 0 {
          assert rs[i] == rest[i - 1];
        }
      }
    }
  }

  // -----------------------------------------------------------------------
  // Timeline availability
  // -----------------------------------------------------------------------

  /** Whatever the action, a tick on which `SteamTimeline.Get` fails makes
      no timeline call; the event is dropped, not replayed. */
  lemma UnavailableTimelineDropsEveryAction(a: Action, instance: Option<NonNullPtr>,
                                           env: SteamApi.Env, zoneLookup: Option<string>,
                                           tagPriority: uint32)
    requires Acquisition.Get(instance, env).result.Failure?
    ensures RunOnTick(a, instance, env, zoneLookup, tagPriority).calls == []
    ensures RunOnTick(a, instance, env, zoneLookup, tagPriority).instance.None?
  {
  }

  /** A host that provides an initialized Steam API whose handshake
      succeeds. */
  function ReadyEnv(): SteamApi.Env
  {
    SteamApi.Env(Some(SteamApi.Framework(true, 5)), Option.None, Null,
                 map[(5, SteamApi.GetHSteamUserSymbol) := 1,
                     (5, SteamApi.FindOrCreateUserInterfaceSymbol) := 2],
                 0, Null, 0,
                 map[(0, SteamApi.InterfaceVersion) := 100], map[100 := 200])
  }

  /** A host with neither a framework nor a configured app id. */
  function AbsentEnv(): SteamApi.Env
  {
    ReadyEnv().(framework := Option.None)
  }

  /** Because the dispatcher keeps no phase state, a duty entered while the
      timeline is unavailable and left once it is available produces a phase
      end with no start before it. */
  lemma UnmatchedPhaseEndWhenAcquisitionIsLate(zoneLookup: Option<string>, tagPriority: uint32)
    ensures var enter := RunOnTick(BoundByDutyTick(true), Option.None, AbsentEnv(), zoneLookup, tagPriority);
      var leave := RunOnTick(BoundByDutyTick(false), enter.instance, ReadyEnv(), zoneLookup, tagPriority);
      && enter.calls == []
      && |leave.calls| == 1
      && leave.calls[0].slot == VTable.EndGamePhase
  {
    var ready := ReadyEnv();
    assert SteamApi.Proc(ready, 5, SteamApi.GetHSteamUserSymbol) == 1;
    assert SteamApi.Proc(ready, 5, SteamApi.FindOrCreateUserInterfaceSymbol) == 2;
    assert SteamApi.RequestedInterface(ready) == 100;
    assert SteamApi.VTableOf(ready, 100) == 200;
  }
}

=== FILE: host.dfy ===
/** The host application's side of the event mapping: the events it
    delivers, the subscription sources they arrive through, the deferred
    actions a handler schedules to run on the next framework tick, and the
    zone-name fallback. */
module Host {
  import opened Native
  import opened Wrappers

  /** The condition flags the mappers distinguish; every other flag of the
      host is `OtherFlag`. */
  datatype ConditionFlag = BetweenAreas | BoundByDuty | OtherFlag(id: nat)

  /** One delivered host event. Event arguments no handler reads (territory
      ids, logout codes) are left out. `FrameworkUpdate` carries the local
      player's current health, or None when there is no local player. */
  datatype HostEvent =
    | DutyStarted
    | DutyWiped
    | DutyCompleted
    | ConditionChange(flag: ConditionFlag, value: bool)
    | Login
    | Logout
    | FrameworkUpdate(health: Option<uint32>)
    | TerritoryChanged

  /** The host event source a handler subscribes to. */
  datatype EventSource =
    | DutyStartedSource
    | DutyWipedSource
    | DutyCompletedSource
    | ConditionChangeSource
    | LoginSource
    | LogoutSource
    | UpdateSource
    | TerritoryChangedSource

  function SourceOf(e: HostEvent): EventSource
  {
    match e
    case DutyStarted => DutyStartedSource
    case DutyWiped => DutyWipedSource
    case DutyCompleted => DutyCompletedSource
    case ConditionChange(_, _) => ConditionChangeSource
    case Login => LoginSource
    case Logout => LogoutSource
    case FrameworkUpdate(_) => UpdateSource
    case TerritoryChanged => TerritoryChangedSource
  }

  const AllSources: set<EventSource> :=
    { DutyStartedSource, DutyWipedSource, DutyCompletedSource, ConditionChangeSource,
      LoginSource, LogoutSource, UpdateSource, TerritoryChangedSource }

  /** A callback a handler hands to `RunOnTick`. It captures the event's
      values when scheduled; the timeline lookup and the zone lookup happen
      when it runs. */
  datatype Action =
    | DutyStartedTick
    | DutyWipedTick
    | DutyCompletedTick
    | BetweenAreasTick(value: bool)
    | BoundByDutyTick(value: bool)
    | LoginTick
    | LogoutTick
    | HealthTick(health: uint32)
    | TerritoryTick

  /** `GetZoneString`: the place name of the current territory, or the empty
      string when the lookup fails. */
  function ZoneString(lookup: Option<string>): (zone: string)
    ensures lookup.Some? ==> zone == lookup.value
    ensures lookup.None? ==> zone == ""
  {
    lookup.GetOr("")
  }
}

=== FILE: native.dfy ===
/** Primitive values that cross the managed/native boundary: the unsigned
    32-bit integers of the Steam API, native addresses, float seconds passed
    through untouched, NUL-terminated strings, and the decimal text of an
    application id. */
module Native {

  /** C# `uint` (health samples, app ids, priorities, the Steam user handle). */
  newtype uint32 = x: int | 0 <= x < 0x1_0000_0000

  /** A native address (`nint`); 0 is the null pointer. */
  type Ptr = int

  const Null: Ptr := 0

  /** A pointer already checked against null. */
  type NonNullPtr = p: Ptr | p != Null witness 1

  /** A timeline event handle returned by the native side (`nint`). */
  type EventHandle = int

  /** A C# `float` (offsets, durations, tooltip delays). The model never does
      arithmetic on one: it is carried as its IEEE-754 bit pattern. */
  datatype Seconds = Seconds(bits: bv32)

  /** `0f`, whose IEEE-754 bit pattern is all zeros. */
  const ZeroSeconds: Seconds := Seconds(0)

  // ---------------------------------------------------------------------
  // NUL-terminated strings
  // ---------------------------------------------------------------------

  /** The buffer a wrapper hands to native code for `s`: the text with one
      NUL appended before encoding. The text encoding itself (UTF-8) is a
      library call and is left abstract: the buffer is modelled character by
      character. */
  function ToCString(s: string): string
  {
    s + ['\0']
  }

  /** What native code reads from a buffer: every character before the first
      NUL, or the whole buffer when it holds none. */
  function FromCString(b: string): (s: string)
    ensures |s| <= |b|
    ensures s == b[..|s|]
    ensures '\0' !in s
    ensures |s| < |b| ==> b[|s|] == '\0'
  {
    if |b| == 0 || b[0] == '\0' then [] else [b[0]] + FromCString(b[1..])
  }

  /** Native code reads back exactly the managed text if and only if that
      text holds no NUL of its own; an embedded NUL silently truncates it. */
  lemma {:induction false} CStringRoundTrip(s: string)
    ensures FromCString(ToCString(s)) == s <==> '\0' !in s
  {
    if '\0' !in s {
      CStringRoundTripNulFree(s);
    }
  }

  lemma {:induction false} CStringRoundTripNulFree(s: string)
    requires '\0' !in s
    ensures FromCString(ToCString(s)) == s
  {
    if |s| > 0 {
      assert ToCString(s)[0] == s[0];
      assert ToCString(s)[1..] == ToCString(s[1..]);
      CStringRoundTripNulFree(s[1..]);
      assert [s[0]] + s[1..] == s;
    }
  }

  // ---------------------------------------------------------------------
  // Decimal text of an unsigned integer (`uint.ToString()`)
  // ---------------------------------------------------------------------

  predicate IsDigit(c: char)
  {
    '0' <= c <= '9'
  }

  function DigitChar(d: nat): (c: char)
    requires d < 10
    ensures IsDigit(c)
  {
    (('0' as int) + d) as char
  }

  function DigitValue(c: char): nat
    requires IsDigit(c)
  {
    (c as int) - ('0' as int)
  }

  /** The invariant culture's decimal rendering of `n`: digits only, at least
      one of them, and no leading zero. */
  function Decimal(n: nat): (s: string)
    ensures |s| >= 1
    ensures forall i :: 0 <= i < |s| ==> IsDigit(s[i])
    ensures |s| > 1 ==> s[0] != '0'
    ensures n > 0 ==> s[0] != '0'
  {
    if n < 10 then [DigitChar(n)] else Decimal(n / 10) + [DigitChar(n % 10)]
  }

  /** Reads a string of decimal digits back as a number. */
  function ParseDecimal(s: string): nat
    requires forall i :: 0 <= i < |s| ==> IsDigit(s[i])
  {
    if |s| == 0 then 0 else ParseDecimal(s[..|s| - 1]) * 10 + DigitValue(s[|s| - 1])
  }

  /** The decimal text identifies the number: parsing it gives `n` back. */
  lemma {:induction false} DecimalRoundTrip(n: nat)
    ensures ParseDecimal(Decimal(n)) == n
  {
    var s := Decimal(n);
    if n >= 10 {
      var t := Decimal(n / 10);
      assert s == t + [DigitChar(n % 10)];
      assert s[..|s| - 1] == t;
      DecimalRoundTrip(n / 10);
    }
  }

  /** Distinct numbers have distinct decimal texts. */
  lemma DecimalInjective(m: nat, n: nat)
    requires Decimal(m) == Decimal(n)
    ensures m == n
  {
    DecimalRoundTrip(m);
    DecimalRoundTrip(n);
  }
}

=== FILE: recording_acquisition.dfy ===
/** The interface acquisition chain of the older plugin: `SteamTimeline.Get`
    relies on the host's Steam API handle alone and has no fallback loader,
    and `Dispose` clears the singleton. */
module RecordingAcquisition {
  import opened Native
  import opened Wrappers
  import opened SteamApi
  import Acquisition

  /** `SteamTimeline.Get` of the older plugin. A set singleton is returned
      with no further work. Otherwise the framework must be present, must
      report the Steam API initialized and must hold a non-null library
      handle; the handshake then runs on that handle, and the singleton is
      set exactly when it succeeds. No fallback loading ever happens. */
  function Get(instance: Option<NonNullPtr>, env: Env): (r: Acquired)
    ensures instance.Some? ==> r == Acquired(Success(instance.value), instance, [])
    ensures r.result.Success? ==> r.instance == Some(r.result.value)
    ensures r.result.Failure? ==> r.instance.None?
    ensures instance.None? && r.result.Success? ==>
              r.result.value == RequestedInterface(env)
              && VTableOf(env, r.result.value) != Null
    ensures forall e | e in r.trace :: !IsLoaderEffect(e)
  {
    if instance.Some? then
      Acquired(Success(instance.value), instance, [])
    else if env.framework.None? then
      Acquired(Failure(FrameworkNull), None, [])
    else if !env.framework.value.steamApiInitialized then
      Acquired(Failure(SteamApiNotInitialized), None, [])
    else if env.framework.value.steamApiLibraryHandle == Null then
      Acquired(Failure(LibraryHandleNull), None, [])
    else
      var shake := Handshake(env, env.framework.value.steamApiLibraryHandle);
      assert forall e | e in shake.trace ::
        e in FullHandshakeTrace(env.framework.value.steamApiLibraryHandle, env.steamUser);
      Acquired(shake.result, shake.result.ToOption(), shake.trace)
  }

  /** `SteamTimeline.Dispose` of the older plugin: the singleton is cleared. */
  function Dispose(instance: Option<NonNullPtr>): (r: Option<NonNullPtr>)
    ensures r.None?
  {
    None
  }

  /** With no singleton, the three host checks come first, in order, and
      each failing one ends the chain before any effect. */
  lemma GetHostChecks(env: Env)
    ensures Get(None, env).result == Failure(FrameworkNull) <==> env.framework.None?
    ensures Get(None, env).result == Failure(SteamApiNotInitialized) <==>
              env.framework.Some? && !env.framework.value.steamApiInitialized
    ensures Get(None, env).result == Failure(LibraryHandleNull) <==>
              env.framework.Some? && env.framework.value.steamApiInitialized
              && env.framework.value.steamApiLibraryHandle == Null
    ensures !Acquisition.HostHandleUsable(env) ==>
              Get(None, env).result.Failure? && Get(None, env).trace == []
  {
  }

  /** Once the three host checks pass, `Get` is the handshake on the host's
      handle, in result and effects: it succeeds exactly when the
      handshake's checks pass, its effects are the whole protocol on
      success, and any failure is one of the handshake's own. */
  lemma GetRunsHandshakeOnHostHandle(env: Env)
    requires Acquisition.HostHandleUsable(env)
    requires env.framework.value.steamApiLibraryHandle != Null
    ensures var h := env.framework.value.steamApiLibraryHandle;
      var r := Get(None, env);
      && (r.result.Success? <==> HandshakeSucceeds(env, h))
      && r.trace <= FullHandshakeTrace(h, env.steamUser)
      && (r.result.Success? ==> r.trace == FullHandshakeTrace(h, env.steamUser))
      && r.result == Handshake(env, h).result
      && r.trace == Handshake(env, h).trace
      && (r.result.Failure? ==>
            r.result.error !in {FrameworkNull, SteamApiNotInitialized, LibraryHandleNull})
  {
  }

  /** Where the host holds an initialized Steam API, the older chain and the
      current one behave identically; the current one differs only in what
      it does without one. */
  lemma AgreesWithCurrentOnHostPath(instance: Option<NonNullPtr>, env: Env)
    requires Acquisition.HostHandleUsable(env)
    ensures Get(instance, env) == Acquisition.Get(instance, env)
  {
  }

  /** Success is memoized, failure is not. */
  lemma GetMemoizesSuccessOnly(env: Env, later: Env)
    ensures var first := Get(None, env);
      first.result.Success? ==>
        Get(first.instance, later) == Acquired(first.result, first.instance, [])
    ensures var first := Get(None, env);
      first.result.Failure? ==> Get(first.instance, later) == Get(None, later)
  {
  }
}

=== FILE: recording_plugin.dfy ===
/** The older plugin's event mapper, which lived in its `Plugin` class. It
    keeps the same state (the last observed health value) and handles the
    same events as the current dispatcher, except that it reacts to no
    condition flag but the loading-screen one, does not listen for zone
    changes, and clears the timeline singleton itself on disposal. */
module RecordingPlugin {
  import opened Native
  import opened Wrappers
  import opened Host
  import opened Timeline
  import SteamApi
  import RecordingAcquisition
  import Dispatcher

  type State = Dispatcher.State
  type Step = Dispatcher.Step

  /** The host event handlers of the older plugin. */
  function Handle(s: State, e: HostEvent): (r: Step)
    ensures !e.FrameworkUpdate? ==> r.state == s
    ensures |r.queued| <= 1
  {
    match e
    case DutyStarted => Dispatcher.Step(s, [DutyStartedTick])
    case DutyWiped => Dispatcher.Step(s, [DutyWipedTick])
    case DutyCompleted => Dispatcher.Step(s, [DutyCompletedTick])
    case ConditionChange(flag, value) =>
      if !flag.BetweenAreas? then Dispatcher.Step(s, [])
      else Dispatcher.Step(s, [BetweenAreasTick(value)])
    case Login => Dispatcher.Step(s, [LoginTick])
    case Logout => Dispatcher.Step(s, [LogoutTick])
    case FrameworkUpdate(health) =>
      if health.None? then Dispatcher.Step(s, [])
      else
        var h := health.value;
        if s.lastHealth.None? then Dispatcher.Step(Dispatcher.State(Some(h)), [])
        else if s.lastHealth.value != h then
          Dispatcher.Step(Dispatcher.State(Some(h)), [HealthTick(h)])
        else Dispatcher.Step(s, [])
    case TerritoryChanged => Dispatcher.Step(s, [])
  }

  /** The wrapper calls each scheduled action of the older plugin makes once
      the timeline is available. It schedules no phase or tooltip actions. */
  function Perform(a: Action, zone: string): (rs: seq<Request>)
    ensures |rs| <= 1
    ensures rs == [] <==> a.BoundByDutyTick? || a.TerritoryTick? || (a.HealthTick? && a.health != 0)
    ensures forall r | r in rs :: r.AddInstantaneousTimelineEvent? || r.SetTimelineGameMode?
    ensures forall r | r in rs :: r.AddInstantaneousTimelineEvent? ==>
              && r.description == zone && r.iconPriority == 0
              && r.startOffsetSeconds == ZeroSeconds && r.possibleClip != ClipPriority.Invalid
  {
    match a
    case DutyStartedTick =>
      [AddInstantaneousTimelineEvent("Duty Started", zone, "steam_combat", 0, ZeroSeconds,
                                     ClipPriority.Featured)]
    case DutyWipedTick =>
      [AddInstantaneousTimelineEvent("Duty Wipe", zone, "steam_x", 0, ZeroSeconds, DefaultClip)]
    case DutyCompletedTick =>
      [AddInstantaneousTimelineEvent("Duty Completed", zone, "steam_crown", 0, ZeroSeconds,
                                     ClipPriority.Featured)]
    case BetweenAreasTick(value) =>
      [SetTimelineGameMode(if value then GameMode.LoadingScreen else GameMode.Playing)]
    case LoginTick => [SetTimelineGameMode(GameMode.Playing)]
    case LogoutTick => [SetTimelineGameMode(GameMode.LoadingScreen)]
    case HealthTick(health) =>
      if health == 0
      then [AddInstantaneousTimelineEvent("Death", zone, "steam_death", 0, ZeroSeconds, DefaultClip)]
      else []
    case BoundByDutyTick(_) => []
    case TerritoryTick => []
  }

  function Emitted(queued: seq<Action>, zone: string): seq<Request>
    decreases |queued|
  {
    if |queued| == 0 then [] else Perform(queued[0], zone) + Emitted(queued[1..], zone)
  }

  /** Runs a scheduled action on a tick with the older acquisition chain. */
  function RunOnTick(a: Action, instance: Option<NonNullPtr>, env: SteamApi.Env,
                     zoneLookup: Option<string>): (r: Dispatcher.Tick)
    ensures r.instance == RecordingAcquisition.Get(instance, env).instance
    ensures r.trace == RecordingAcquisition.Get(instance, env).trace
    ensures RecordingAcquisition.Get(instance, env).result.Failure? ==> r.calls == []
    ensures RecordingAcquisition.Get(instance, env).result.Success? ==>
              var requests := Perform(a, ZoneString(zoneLookup));
              && |r.calls| == |requests|
              && forall i :: 0 <= i < |requests| ==>
                   r.calls[i] == Lower(RecordingAcquisition.Get(instance, env).result.value, requests[i])
  {
    Dispatcher.Apply(RecordingAcquisition.Get(instance, env), Perform(a, ZoneString(zoneLookup)))
  }

  /** The sources the older plugin subscribes to: all but zone changes. */
  const Subscribed: set<EventSource> := AllSources - {TerritoryChangedSource}

  function Deliver(subs: set<EventSource>, s: State, e: HostEvent): Step
  {
    if SourceOf(e) in subs then Handle(s, e) else Dispatcher.Step(s, [])
  }

  /** `Dispose`: the seven handlers are unsubscribed, and then the timeline
      singleton is cleared. */
  function Dispose(subs: set<EventSource>, instance: Option<NonNullPtr>)
    : (r: (set<EventSource>, Option<NonNullPtr>))
    ensures subs <= Subscribed ==> r.0 == {}
    ensures r.1.None?
  {
    (subs - { DutyStartedSource, DutyWipedSource, DutyCompletedSource, ConditionChangeSource,
              LoginSource, LogoutSource, UpdateSource },
     RecordingAcquisition.Dispose(instance))
  }

  /** After disposal no event reaches the plugin, and the next timeline
      acquisition runs the whole chain again. */
  lemma DisposeSilencesAndResets(s: State, e: HostEvent, instance: Option<NonNullPtr>,
                                 env: SteamApi.Env)
    ensures Deliver(Dispose(Subscribed, instance).0, s, e) == Dispatcher.Step(s, [])
    ensures RecordingAcquisition.Get(Dispose(Subscribed, instance).1, env)
            == RecordingAcquisition.Get(Option.None, env)
  {
  }

  /** Only the loading-screen flag is acted on: it selects LoadingScreen on
      true and Playing on false; every other flag leaves state and queue
      untouched. Login selects Playing and logout LoadingScreen. */
  lemma OnlyLoadingFlagSetsMode(s: State, flag: ConditionFlag, value: bool, zone: string)
    ensures !flag.BetweenAreas? ==> Handle(s, ConditionChange(flag, value)) == Dispatcher.Step(s, [])
    ensures flag.BetweenAreas? ==>
              Emitted(Handle(s, ConditionChange(flag, value)).queued, zone)
              == [SetTimelineGameMode(if value then GameMode.LoadingScreen else GameMode.Playing)]
    ensures Emitted(Handle(s, Login).queued, zone) == [SetTimelineGameMode(GameMode.Playing)]
    ensures Emitted(Handle(s, Logout).queued, zone) == [SetTimelineGameMode(GameMode.LoadingScreen)]
  {
    if flag.BetweenAreas? {
      assert Handle(s, ConditionChange(flag, value)).queued == [BetweenAreasTick(value)];
      assert [BetweenAreasTick(value)][1..] == [];
    }
    assert [LoginTick][1..] == [];
    assert [LogoutTick][1..] == [];
  }

  /** Duty start and completion are featured clips; a wipe uses the default
      clip priority, None. All three use icon priority 0 and offset 0. */
  lemma DutyMarkerPriorities(s: State, zone: string)
    ensures Emitted(Handle(s, DutyStarted).queued, zone)[0].possibleClip == ClipPriority.Featured
    ensures Emitted(Handle(s, DutyCompleted).queued, zone)[0].possibleClip == ClipPriority.Featured
    ensures Emitted(Handle(s, DutyWiped).queued, zone)[0].possibleClip == ClipPriority.None
    ensures forall e | e in {DutyStarted, DutyWiped, DutyCompleted} ::
              && |Emitted(Handle(s, e).queued, zone)| == 1
              && Emitted(Handle(s, e).queued, zone)[0].AddInstantaneousTimelineEvent?
              && Emitted(Handle(s, e).queued, zone)[0].iconPriority == 0
              && Emitted(Handle(s, e).queued, zone)[0].startOffsetSeconds == ZeroSeconds
              && Emitted(Handle(s, e).queued, zone)[0].description == zone
  {
    assert [DutyStartedTick][1..] == [];
    assert [DutyWipedTick][1..] == [];
    assert [DutyCompletedTick][1..] == [];
  }

  /** On every event both plugins handle alike (all but the duty flag and
      zone changes), the older plugin reaches the same state and makes the
      same calls as the current dispatcher; in particular its health edge
      detection, "Death" marker included, is the same. */
  lemma AgreesWithDispatcher(s: State, e: HostEvent, zone: string, tagPriority: uint32)
    requires !e.TerritoryChanged?
    requires e.ConditionChange? ==> !e.flag.BoundByDuty?
    ensures Handle(s, e).state == Dispatcher.Handle(s, e).state
    ensures Emitted(Handle(s, e).queued, zone)
            == Dispatcher.Emitted(Dispatcher.Handle(s, e).queued, zone, tagPriority)
  {
    var q := Handle(s, e).queued;
    assert q == Dispatcher.Handle(s, e).queued;
    if |q| == 1 {
      assert q[1..] == [];
      assert Perform(q[0], zone) == Dispatcher.Perform(q[0], zone, tagPriority);
    }
  }

  /** A health sample of the older plugin ends in a "Death" marker if and
      only if the health changed from a known nonzero value to 0. */
  lemma DeathIffTransitionIntoZero(s: State, h: uint32, zone: string)
    ensures var calls := Emitted(Handle(s, FrameworkUpdate(Some(h))).queued, zone);
      && (calls == [Dispatcher.Death(zone)] <==>
            s.lastHealth.Some? && s.lastHealth.value != 0 && h == 0)
      && (calls == [] || calls == [Dispatcher.Death(zone)])
    ensures Handle(s, FrameworkUpdate(Some(h))).state.lastHealth == Some(h)
  {
    AgreesWithDispatcher(s, FrameworkUpdate(Some(h)), zone, 0);
    Dispatcher.DeathIffTransitionIntoZero(s, h, zone, 0);
  }

  /** A tick on which the older acquisition chain fails makes no call. */
  lemma UnavailableTimelineDropsEveryAction(a: Action, instance: Option<NonNullPtr>,
                                           env: SteamApi.Env, zoneLookup: Option<string>)
    requires RecordingAcquisition.Get(instance, env).result.Failure?
    ensures RunOnTick(a, instance, env, zoneLookup).calls == []
    ensures RunOnTick(a, instance, env, zoneLookup).instance.None?
  {
  }
}

=== FILE: steam_api.dfy ===
/** The environment the interface acquisition chain runs against, the
    side effects it performs, the ways it can give up, and the two-call
    handshake that both versions of the chain share once they hold a native
    module handle: resolve `SteamAPI_GetHSteamUser` and call it, resolve
    `SteamInternal_FindOrCreateUserInterface` and call it with the fixed
    interface version, then check the interface and its leading vtable
    pointer for null. */
module SteamApi {
  import opened Native
  import opened Wrappers

  /** The host's `Framework` singleton, as far as the chain reads it. */
  datatype Framework = Framework(steamApiInitialized: bool, steamApiLibraryHandle: Ptr)

  /** Answers of everything outside the model that the chain consults. A
      symbol missing from `exports` resolves to null, as `GetProcAddress`
      reports it; an interface or vtable missing from its map reads as null. */
  datatype Env = Env(
    framework: Option<Framework>,           // `Framework.Instance()`; None is null
    nonSteamAppId: Option<uint32>,          // configured app id for non-Steam accounts
    loadLibraryResult: Ptr,                 // `LoadLibraryW` of the Steam API module
    exports: map<(Ptr, string), Ptr>,       // `GetProcAddress(library, symbol)`
    restartResult: uint32,                  // `SteamAPI_RestartAppIfNecessary(appId)`
    initResult: Ptr,                        // `SteamAPI_Init()`
    steamUser: uint32,                      // `SteamAPI_GetHSteamUser()`
    interfaces: map<(uint32, string), Ptr>, // `FindOrCreateUserInterface(user, version)`
    vtables: map<Ptr, Ptr>                  // the leading VTable field of an interface
  )

  /** One externally visible step of the chain, in the order performed. File
      and library paths are kept relative to the process executable. */
  datatype Effect =
    | WriteAllText(path: string, contents: string)
    | LoadLibraryW(path: string)
    | SetEnvironmentVariable(name: string, value: string)
    | GetProcAddress(library: Ptr, symbol: string)
    | CallRestartAppIfNecessary(appId: uint32)
    | CallInit
    | CallGetHSteamUser
    | CallFindOrCreateUserInterface(steamUser: uint32, version: string)

  /** Why an acquisition gave up; each is a separate debug-logged branch. */
  datatype Failure =
    | FrameworkNull
    | SteamApiNotInitialized
    | LibraryHandleNull
    | GetHSteamUserMissing
    | FindOrCreateUserInterfaceMissing
    | InterfaceNull
    | VTableNull

  /** The outcome of one step together with the effects it performed. */
  datatype Attempt<T> = Attempt(result: Result<T, Failure>, trace: seq<Effect>)

  /** The outcome of `SteamTimeline.Get`: the returned pointer (or why it is
      null), the singleton afterwards, and the effects performed. */
  datatype Acquired = Acquired(result: Result<NonNullPtr, Failure>,
                               instance: Option<NonNullPtr>,
                               trace: seq<Effect>)

  const GetHSteamUserSymbol: string := "SteamAPI_GetHSteamUser"
  const FindOrCreateUserInterfaceSymbol: string := "SteamInternal_FindOrCreateUserInterface"
  const RestartAppIfNecessarySymbol: string := "SteamAPI_RestartAppIfNecessary"
  const InitSymbol: string := "SteamAPI_Init"
  const InterfaceVersion: string := "STEAMTIMELINE_INTERFACE_V004"

  /** `GetProcAddress(library, symbol)`. */
  function Proc(env: Env, library: Ptr, symbol: string): Ptr
  {
    if (library, symbol) in env.exports then env.exports[(library, symbol)] else Null
  }

  /** `FindOrCreateUserInterface(user, version)`. */
  function InterfaceFor(env: Env, user: uint32, version: string): Ptr
  {
    if (user, version) in env.interfaces then env.interfaces[(user, version)] else Null
  }

  /** The leading VTable field of the interface at `iface`. */
  function VTableOf(env: Env, iface: Ptr): Ptr
  {
    if iface in env.vtables then env.vtables[iface] else Null
  }

  /** The interface pointer a successful handshake yields. */
  function RequestedInterface(env: Env): Ptr
  {
    InterfaceFor(env, env.steamUser, InterfaceVersion)
  }

  /** All four effects of a handshake that gets as far as the interface
      request. */
  function FullHandshakeTrace(handle: Ptr, user: uint32): seq<Effect>
  {
    [ GetProcAddress(handle, GetHSteamUserSymbol),
      CallGetHSteamUser,
      GetProcAddress(handle, FindOrCreateUserInterfaceSymbol),
      CallFindOrCreateUserInterface(user, InterfaceVersion) ]
  }

  /** Everything the handshake on `handle` needs: both bootstrap symbols
      resolve, and the requested interface and its vtable are non-null. */
  predicate HandshakeSucceeds(env: Env, handle: Ptr)
  {
    && Proc(env, handle, GetHSteamUserSymbol) != Null
    && Proc(env, handle, FindOrCreateUserInterfaceSymbol) != Null
    && RequestedInterface(env) != Null
    && VTableOf(env, RequestedInterface(env)) != Null
  }

  /** The handshake on a non-null module handle. It succeeds exactly when
      both bootstrap symbols resolve and the requested interface and its
      vtable are non-null, and then yields that interface. Its effects are
      always a prefix of the full protocol, so the user handle is resolved
      and fetched before the interface symbol is looked up, and the
      interface is only ever requested under the fixed version string: one
      effect before a missing `GetHSteamUser`, three before a missing
      `FindOrCreateUserInterface`, and all four once both resolve. */
  function Handshake(env: Env, handle: NonNullPtr): (r: Attempt<NonNullPtr>)
    ensures r.result.Success? <==> HandshakeSucceeds(env, handle)
    ensures r.result.Success? ==> r.result.value == RequestedInterface(env)
    ensures r.trace <= FullHandshakeTrace(handle, env.steamUser)
    ensures r.result.Success? ==> r.trace == FullHandshakeTrace(handle, env.steamUser)
    ensures Proc(env, handle, GetHSteamUserSymbol) == Null ==>
              r.trace == FullHandshakeTrace(handle, env.steamUser)[..1]
    ensures Proc(env, handle, GetHSteamUserSymbol) != Null
            && Proc(env, handle, FindOrCreateUserInterfaceSymbol) == Null ==>
              r.trace == FullHandshakeTrace(handle, env.steamUser)[..3]
    ensures Proc(env, handle, GetHSteamUserSymbol) != Null
            && Proc(env, handle, FindOrCreateUserInterfaceSymbol) != Null ==>
              r.trace == FullHandshakeTrace(handle, env.steamUser)
    ensures r.result.Failure? ==> r.result.error !in {FrameworkNull, SteamApiNotInitialized, LibraryHandleNull}
  {
    var full := FullHandshakeTrace(handle, env.steamUser);
    if Proc(env, handle, GetHSteamUserSymbol) == Null then
      Attempt(Failure(GetHSteamUserMissing), full[..1])
    else if Proc(env, handle, FindOrCreateUserInterfaceSymbol) == Null then
      Attempt(Failure(FindOrCreateUserInterfaceMissing), full[..3])
    else
      var iface := InterfaceFor(env, env.steamUser, InterfaceVersion);
      if iface == Null then
        Attempt(Failure(InterfaceNull), full)
      else if VTableOf(env, iface) == Null then
        Attempt(Failure(VTableNull), full)
      else
        Attempt(Success(iface), full)
  }

  /** Which failure the handshake reports is decided by the first check, in
      source order, that does not pass. */
  lemma HandshakeCheckOrder(env: Env, handle: NonNullPtr)
    ensures var r := Handshake(env, handle);
      && (r.result == Failure(GetHSteamUserMissing) <==>
            Proc(env, handle, GetHSteamUserSymbol) == Null)
      && (r.result == Failure(FindOrCreateUserInterfaceMissing) <==>
            Proc(env, handle, GetHSteamUserSymbol) != Null
            && Proc(env, handle, FindOrCreateUserInterfaceSymbol) == Null)
      && (r.result == Failure(InterfaceNull) <==>
            Proc(env, handle, GetHSteamUserSymbol) != Null
            && Proc(env, handle, FindOrCreateUserInterfaceSymbol) != Null
            && RequestedInterface(env) == Null)
      && (r.result == Failure(VTableNull) <==>
            Proc(env, handle, GetHSteamUserSymbol) != Null
            && Proc(env, handle, FindOrCreateUserInterfaceSymbol) != Null
            && RequestedInterface(env) != Null
            && VTableOf(env, RequestedInterface(env)) == Null)
  {
  }

  /** Effects that only the fallback module-loading path performs, the
      lookups of the restart check and of `SteamAPI_Init` included. */
  predicate IsLoaderEffect(e: Effect)
  {
    || e.WriteAllText? || e.LoadLibraryW? || e.SetEnvironmentVariable?
    || e.CallRestartAppIfNecessary? || e.CallInit?
    || (e.GetProcAddress? && (e.symbol == RestartAppIfNecessarySymbol || e.symbol == InitSymbol))
  }
}

=== FILE: timeline.dfy ===
/** The typed call surface over the timeline vtable: the two enumerations the
    native API uses, one request per public wrapper method (its C# argument
    list, defaults resolved), and the lowering of a request to the raw slot
    call it issues. A wrapper does nothing but marshal its string arguments
    into NUL-terminated buffers and call the slot of the same name with its
    own pointer as receiver. */
module Timeline {
  import opened Native
  import Wrappers
  import VTable

  /** `ETimelineGameMode`. `Max` takes the value after `LoadingScreen`. */
  datatype GameMode = Invalid | Playing | Staging | Menus | LoadingScreen | Max

  /** `ETimelineEventClipPriority`. */
  datatype ClipPriority = Invalid | None | Standard | Featured

  function GameModeValue(m: GameMode): uint32
  {
    match m
    case Invalid => 0
    case Playing => 1
    case Staging => 2
    case Menus => 3
    case LoadingScreen => 4
    case Max => 5
  }

  /** The enumerator a native integer denotes, if any. */
  function GameModeOf(v: uint32): Wrappers.Option<GameMode>
  {
    if v == 0 then Wrappers.Some(GameMode.Invalid)
    else if v == 1 then Wrappers.Some(GameMode.Playing)
    else if v == 2 then Wrappers.Some(GameMode.Staging)
    else if v == 3 then Wrappers.Some(GameMode.Menus)
    else if v == 4 then Wrappers.Some(GameMode.LoadingScreen)
    else if v == 5 then Wrappers.Some(GameMode.Max)
    else Wrappers.None
  }

  function ClipPriorityValue(c: ClipPriority): uint32
  {
    match c
    case Invalid => 0
    case None => 1
    case Standard => 2
    case Featured => 3
  }

  function ClipPriorityOf(v: uint32): Wrappers.Option<ClipPriority>
  {
    if v == 0 then Wrappers.Some(ClipPriority.Invalid)
    else if v == 1 then Wrappers.Some(ClipPriority.None)
    else if v == 2 then Wrappers.Some(ClipPriority.Standard)
    else if v == 3 then Wrappers.Some(ClipPriority.Featured)
    else Wrappers.None
  }

  /** The game-mode enumerators are exactly the values 0 to 5, each denoting
      one enumerator. */
  lemma GameModeEncoding(m: GameMode, v: uint32)
    ensures GameModeOf(GameModeValue(m)) == Wrappers.Some(m)
    ensures GameModeOf(v).Some? <==> v <= 5
    ensures GameModeOf(v).Some? ==> GameModeValue(GameModeOf(v).value) == v
  {
  }

  /** The clip-priority enumerators are exactly the values 0 to 3, each
      denoting one enumerator. */
  lemma ClipPriorityEncoding(c: ClipPriority, v: uint32)
    ensures ClipPriorityOf(ClipPriorityValue(c)) == Wrappers.Some(c)
    ensures ClipPriorityOf(v).Some? <==> v <= 3
    ensures ClipPriorityOf(v).Some? ==> ClipPriorityValue(ClipPriorityOf(v).value) == v
  {
  }

  /** The clip priority a wrapper uses when its caller gives none. */
  const DefaultClip: ClipPriority := ClipPriority.None

  /** The default clip priority is `None` (1), which the native side
      distinguishes from `Invalid` (0). */
  lemma DefaultClipIsNotInvalid()
    ensures ClipPriorityValue(DefaultClip) == 1
    ensures ClipPriorityValue(DefaultClip) != ClipPriorityValue(ClipPriority.Invalid)
  {
  }

  /** One argument value, on either side of the boundary: `Str` holds the
      managed text before marshalling and the NUL-terminated buffer after. */
  datatype Value =
    | Str(text: string)
    | U32(u: uint32)
    | F32(secs: Seconds)
    | Mode(mode: GameMode)
    | Clip(clip: ClipPriority)
    | Event(handle: EventHandle)

  function KindOf(v: Value): VTable.ArgKind
  {
    match v
    case Str(_) => VTable.CStr
    case U32(_) => VTable.U32
    case F32(_) => VTable.F32
    case Mode(_) => VTable.GameModeArg
    case Clip(_) => VTable.ClipPriorityArg
    case Event(_) => VTable.EventArg
  }

  /** One invocation of a public wrapper method, with its C# arguments. */
  datatype Request =
    | SetTimelineTooltip(description: string, timeDelta: Seconds)
    | ClearTimelineTooltip(timeDelta: Seconds)
    | SetTimelineGameMode(mode: GameMode)
    | AddInstantaneousTimelineEvent(title: string, description: string, icon: string,
                                    iconPriority: uint32, startOffsetSeconds: Seconds,
                                    possibleClip: ClipPriority)
    | AddRangeTimelineEvent(title: string, description: string, icon: string,
                            iconPriority: uint32, startOffsetSeconds: Seconds,
                            duration: Seconds, possibleClip: ClipPriority)
    | StartRangeTimelineEvent(title: string, description: string, icon: string,
                              priority: uint32, startOffsetSeconds: Seconds,
                              possibleClip: ClipPriority)
    | UpdateRangeTimelineEvent(eventHandle: EventHandle, title: string, description: string,
                               icon: string, priority: uint32, possibleClip: ClipPriority)
    | EndRangeTimelineEvent(eventHandle: EventHandle, endOffsetSeconds: Seconds)
    | RemoveTimelineEvent(eventHandle: EventHandle)
    | StartGamePhase
    | EndGamePhase
    | SetGamePhaseId(phaseId: string)
    | AddGamePhaseTag(tagName: string, tagIcon: string, tagGroup: string, priority: uint32)
    | SetGamePhaseAttribute(attributeGroup: string, attributeValue: string, priority: uint32)
    | OpenOverlayToGamePhase(phaseId: string)
    | OpenOverlayToTimelineEvent(eventHandle: EventHandle)

  /** `SetTimelineTooltip(description)` with the default delay of `0f`. */
  function Tooltip(description: string): Request
  {
    SetTimelineTooltip(description, ZeroSeconds)
  }

  /** `AddInstantaneousTimelineEvent` with an icon priority and start offset
      of 0 and the given clip priority. */
  function Instant(title: string, description: string, icon: string, clip: ClipPriority): Request
  {
    AddInstantaneousTimelineEvent(title, description, icon, 0, ZeroSeconds, clip)
  }

  /** The slot a wrapper calls: the one of the same name. */
  function WrapperSlot(r: Request): VTable.Slot
  {
    match r
    case SetTimelineTooltip(_, _) => VTable.SetTimelineTooltip
    case ClearTimelineTooltip(_) => VTable.ClearTimelineTooltip
    case SetTimelineGameMode(_) => VTable.SetTimelineGameMode
    case AddInstantaneousTimelineEvent(_, _, _, _, _, _) => VTable.AddInstantaneousTimelineEvent
    case AddRangeTimelineEvent(_, _, _, _, _, _, _) => VTable.AddRangeTimelineEvent
    case StartRangeTimelineEvent(_, _, _, _, _, _) => VTable.StartRangeTimelineEvent
    case UpdateRangeTimelineEvent(_, _, _, _, _, _) => VTable.UpdateRangeTimelineEvent
    case EndRangeTimelineEvent(_, _) => VTable.EndRangeTimelineEvent
    case RemoveTimelineEvent(_) => VTable.RemoveTimelineEvent
    case StartGamePhase => VTable.StartGamePhase
    case EndGamePhase => VTable.EndGamePhase
    case SetGamePhaseId(_) => VTable.SetGamePhaseID
    case AddGamePhaseTag(_, _, _, _) => VTable.AddGamePhaseTag
    case SetGamePhaseAttribute(_, _, _) => VTable.SetGamePhaseAttribute
    case OpenOverlayToGamePhase(_) => VTable.OpenOverlayToGamePhase
    case OpenOverlayToTimelineEvent(_) => VTable.OpenOverlayToTimelineEvent
  }

  /** The wrappers cover the table: every slot but the two recording queries
      is called by some wrapper, and no wrapper calls a query. With sixteen
      wrappers and sixteen such slots, no two wrappers share a slot. */
  lemma WrappersCoverNonQuerySlots(s: VTable.Slot)
    ensures (exists r :: WrapperSlot(r) == s) <==>
              s != VTable.DoesEventRecordingExist && s != VTable.DoesGamePhaseRecordingExist
  {
    var w: Request;
    match s {
      case SetTimelineTooltip => w := SetTimelineTooltip("", ZeroSeconds);
      case ClearTimelineTooltip => w := ClearTimelineTooltip(ZeroSeconds);
      case SetTimelineGameMode => w := SetTimelineGameMode(GameMode.Playing);
      case AddInstantaneousTimelineEvent => w := AddInstantaneousTimelineEvent("", "", "", 0, ZeroSeconds, DefaultClip);
      case AddRangeTimelineEvent => w := AddRangeTimelineEvent("", "", "", 0, ZeroSeconds, ZeroSeconds, DefaultClip);
      case StartRangeTimelineEvent => w := StartRangeTimelineEvent("", "", "", 0, ZeroSeconds, DefaultClip);
      case UpdateRangeTimelineEvent => w := UpdateRangeTimelineEvent(0, "", "", "", 0, DefaultClip);
      case EndRangeTimelineEvent => w := EndRangeTimelineEvent(0, ZeroSeconds);
      case RemoveTimelineEvent => w := RemoveTimelineEvent(0);
      case DoesEventRecordingExist => return;
      case StartGamePhase => w := StartGamePhase;
      case EndGamePhase => w := EndGamePhase;
      case SetGamePhaseID => w := SetGamePhaseId("");
      case DoesGamePhaseRecordingExist => return;
      case AddGamePhaseTag => w := AddGamePhaseTag("", "", "", 0);
      case SetGamePhaseAttribute => w := SetGamePhaseAttribute("", "", 0);
      case OpenOverlayToGamePhase => w := OpenOverlayToGamePhase("");
      case OpenOverlayToTimelineEvent => w := OpenOverlayToTimelineEvent(0);
    }
    assert WrapperSlot(w) == s;
  }

  /** What a wrapper returns to its caller. */
  function WrapperReturns(r: Request): VTable.ReturnKind
  {
    if r.AddInstantaneousTimelineEvent? || r.AddRangeTimelineEvent? || r.StartRangeTimelineEvent?
    then VTable.NInt
    else VTable.Void
  }

  /** A wrapper's C# arguments, in declaration order. */
  function Arguments(r: Request): seq<Value>
  {
    match r
    case SetTimelineTooltip(d, t) => [Str(d), F32(t)]
    case ClearTimelineTooltip(t) => [F32(t)]
    case SetTimelineGameMode(m) => [Mode(m)]
    case AddInstantaneousTimelineEvent(t, d, i, p, o, c) => [Str(t), Str(d), Str(i), U32(p), F32(o), Clip(c)]
    case AddRangeTimelineEvent(t, d, i, p, o, du, c) => [Str(t), Str(d), Str(i), U32(p), F32(o), F32(du), Clip(c)]
    case StartRangeTimelineEvent(t, d, i, p, o, c) => [Str(t), Str(d), Str(i), U32(p), F32(o), Clip(c)]
    case UpdateRangeTimelineEvent(e, t, d, i, p, c) => [Event(e), Str(t), Str(d), Str(i), U32(p), Clip(c)]
    case EndRangeTimelineEvent(e, o) => [Event(e), F32(o)]
    case RemoveTimelineEvent(e) => [Event(e)]
    case StartGamePhase => []
    case EndGamePhase => []
    case SetGamePhaseId(id) => [Str(id)]
    case AddGamePhaseTag(n, i, g, p) => [Str(n), Str(i), Str(g), U32(p)]
    case SetGamePhaseAttribute(g, v, p) => [Str(g), Str(v), U32(p)]
    case OpenOverlayToGamePhase(id) => [Str(id)]
    case OpenOverlayToTimelineEvent(e) => [Event(e)]
  }

  /** One raw call through the table: the slot, the receiver pointer and the
      marshalled arguments. */
  datatype Call = Call(slot: VTable.Slot, receiver: Ptr, args: seq<Value>)

  /** Marshals one argument: text becomes a NUL-terminated buffer, everything
      else is passed by value. */
  function Marshal(v: Value): Value
  {
    if v.Str? then Str(ToCString(v.text)) else v
  }

  /** What the native side reads from one marshalled argument. */
  function Unmarshal(v: Value): Value
  {
    if v.Str? then Str(FromCString(v.text)) else v
  }

  function MarshalAll(vs: seq<Value>): (ms: seq<Value>)
    ensures |ms| == |vs|
    ensures forall i :: 0 <= i < |vs| ==> ms[i] == Marshal(vs[i])
  {
    seq(|vs|, i requires 0 <= i < |vs| => Marshal(vs[i]))
  }

  /** The arguments as the callee sees them. */
  function NativeView(c: Call): (vs: seq<Value>)
    ensures |vs| == |c.args|
    ensures forall i :: 0 <= i < |vs| ==> vs[i] == Unmarshal(c.args[i])
  {
    seq(|c.args|, i requires 0 <= i < |c.args| => Unmarshal(c.args[i]))
  }

  function KindsOf(vs: seq<Value>): (ks: seq<VTable.ArgKind>)
    ensures |ks| == |vs|
    ensures forall i :: 0 <= i < |vs| ==> ks[i] == KindOf(vs[i])
  {
    seq(|vs|, i requires 0 <= i < |vs| => KindOf(vs[i]))
  }

  /** The raw call a wrapper makes when invoked on the interface at `self`:
      to the slot of the same name, with `self` as receiver and one raw
      argument per wrapper argument. */
  function Lower(self: Ptr, r: Request): (c: Call)
    ensures c.slot == WrapperSlot(r) && c.receiver == self
    ensures |c.args| == |Arguments(r)|
  {
    Call(WrapperSlot(r), self, MarshalAll(Arguments(r)))
  }

  /** Each raw argument is the wrapper argument at the same position: text
      gains a single trailing NUL, every other value passes through as it
      is. */
  lemma LowerMarshalsEachArgument(self: Ptr, r: Request, i: nat)
    requires i < |Arguments(r)|
    ensures Arguments(r)[i].Str? ==>
              Lower(self, r).args[i] == Str(Arguments(r)[i].text + ['\0'])
    ensures !Arguments(r)[i].Str? ==> Lower(self, r).args[i] == Arguments(r)[i]
  {
  }

  /** No string argument of the request carries an embedded NUL. */
  predicate NulFree(r: Request)
  {
    forall v | v in Arguments(r) :: v.Str? ==> '\0' !in v.text
  }

  /** Every wrapper agrees with the table's declaration of the slot it calls:
      the argument kinds match the slot's signature position by position, the
      return kinds match, the receiver is the wrapper's own pointer, and the
      two query slots are never reached through the wrapper surface. */
  lemma LoweringConformsToSlot(self: Ptr, r: Request)
    ensures KindsOf(Lower(self, r).args) == VTable.Signature(Lower(self, r).slot)
    ensures VTable.Returns(Lower(self, r).slot) == WrapperReturns(r)
    ensures Lower(self, r).receiver == self
    ensures Lower(self, r).slot != VTable.DoesEventRecordingExist
    ensures Lower(self, r).slot != VTable.DoesGamePhaseRecordingExist
  {
    var args := Arguments(r);
    var ks := KindsOf(Lower(self, r).args);
    assert |ks| == |args|;
    forall i | 0 <= i < |args|
      ensures ks[i] == KindOf(args[i])
    {
      assert Lower(self, r).args[i] == Marshal(args[i]);
    }
    assert ks == KindsOf(args);
  }

  /** Arguments are forwarded unchanged: the callee reads back exactly the
      wrapper's arguments if and only if none of its strings holds a NUL. */
  lemma {:induction false} ArgumentsForwarded(self: Ptr, r: Request)
    ensures NativeView(Lower(self, r)) == Arguments(r) <==> NulFree(r)
  {
    var args := Arguments(r);
    var view := NativeView(Lower(self, r));
    assert |view| == |args|;
    forall i | 0 <= i < |args|
      ensures view[i] == Unmarshal(Marshal(args[i]))
    {
    }
    if NulFree(r) {
      forall i | 0 <= i < |args|
        ensures view[i] == args[i]
      {
        if args[i].Str? {
          assert args[i] in args;
          CStringRoundTrip(args[i].text);
        }
      }
    } else {
      var v :| v in args && v.Str? && '\0' in v.text;
      var i :| 0 <= i < |args| && args[i] == v;
      CStringRoundTrip(v.text);
      assert view[i] != args[i];
    }
  }

  /** Invoking a wrapper appends exactly one call, to its same-named slot,
      whose arguments fit that slot's native signature and reach the callee
      unchanged when no string holds a NUL, and leaves the calls made before
      it untouched. */
  function Issue(log: seq<Call>, self: Ptr, r: Request): (log': seq<Call>)
    ensures |log'| == |log| + 1
    ensures log'[..|log|] == log
    ensures log'[|log|].slot == WrapperSlot(r)
    ensures log'[|log|].receiver == self
    ensures KindsOf(log'[|log|].args) == VTable.Signature(WrapperSlot(r))
    ensures NulFree(r) ==> NativeView(log'[|log|]) == Arguments(r)
  {
    LoweringConformsToSlot(self, r);
    ArgumentsForwarded(self, r);
    log + [Lower(self, r)]
  }

  /** Invoking a sequence of wrappers, in order. */
  function IssueAll(log: seq<Call>, self: Ptr, rs: seq<Request>): (log': seq<Call>)
    ensures |log'| == |log| + |rs|
    ensures log'[..|log|] == log
    ensures forall i :: |log| <= i < |log'| ==> log'[i] == Lower(self, rs[i - |log|])
    decreases |rs|
  {
    if |rs| == 0 then log
    else
      var next := log + [Lower(self, rs[0])];
      var out := IssueAll(next, self, rs[1..]);
      assert out[..|log|] == log by { assert out[..|next|] == next; assert next[..|log|] == log; }
      assert out[|log|] == Lower(self, rs[0]) by { assert out[..|next|] == next; }
      out
  }
}

=== FILE: vtable.dfy ===
/** The fixed layout of the timeline interface's virtual dispatch table: an
    ordered sequence of 18 function-pointer slots, each with the native
    signature it is declared with. Every slot takes the interface pointer
    itself as a leading receiver argument, which the signatures below leave
    implicit. */
module VTable {

  datatype Slot =
    | SetTimelineTooltip
    | ClearTimelineTooltip
    | SetTimelineGameMode
    | AddInstantaneousTimelineEvent
    | AddRangeTimelineEvent
    | StartRangeTimelineEvent
    | UpdateRangeTimelineEvent
    | EndRangeTimelineEvent
    | RemoveTimelineEvent
    | DoesEventRecordingExist
    | StartGamePhase
    | EndGamePhase
    | SetGamePhaseID
    | DoesGamePhaseRecordingExist
    | AddGamePhaseTag
    | SetGamePhaseAttribute
    | OpenOverlayToGamePhase
    | OpenOverlayToTimelineEvent

  const SlotCount: nat := 18

  /** The native pointer size: the table is packed, so slot `i` sits at byte
      offset `PointerSize * i`. */
  const PointerSize: nat := 8

  /** The kinds of argument a slot declares after its receiver. */
  datatype ArgKind = CStr | F32 | U32 | GameModeArg | ClipPriorityArg | EventArg

  datatype ReturnKind = Void | NInt

  /** Position of a slot in the table, in declaration order. */
  function SlotIndex(s: Slot): (i: nat)
    ensures i < SlotCount
  {
    match s
    case SetTimelineTooltip => 0
    case ClearTimelineTooltip => 1
    case SetTimelineGameMode => 2
    case AddInstantaneousTimelineEvent => 3
    case AddRangeTimelineEvent => 4
    case StartRangeTimelineEvent => 5
    case UpdateRangeTimelineEvent => 6
    case EndRangeTimelineEvent => 7
    case RemoveTimelineEvent => 8
    case DoesEventRecordingExist => 9
    case StartGamePhase => 10
    case EndGamePhase => 11
    case SetGamePhaseID => 12
    case DoesGamePhaseRecordingExist => 13
    case AddGamePhaseTag => 14
    case SetGamePhaseAttribute => 15
    case OpenOverlayToGamePhase => 16
    case OpenOverlayToTimelineEvent => 17
  }

  /** The slot stored at a position of the table. */
  function SlotAt(i: nat): Slot
    requires i < SlotCount
  {
    [ SetTimelineTooltip, ClearTimelineTooltip, SetTimelineGameMode,
      AddInstantaneousTimelineEvent, AddRangeTimelineEvent, StartRangeTimelineEvent,
      UpdateRangeTimelineEvent, EndRangeTimelineEvent, RemoveTimelineEvent,
      DoesEventRecordingExist, StartGamePhase, EndGamePhase, SetGamePhaseID,
      DoesGamePhaseRecordingExist, AddGamePhaseTag, SetGamePhaseAttribute,
      OpenOverlayToGamePhase, OpenOverlayToTimelineEvent ][i]
  }

  /** Byte offset of a slot's function pointer inside the table. */
  function SlotOffset(s: Slot): (offset: nat)
    ensures offset % PointerSize == 0
    ensures offset < PointerSize * SlotCount
  {
    PointerSize * SlotIndex(s)
  }

  /** Positions and slots are in one-to-one correspondence: the table has
      exactly 18 distinct slots, one per position. */
  lemma SlotLayoutBijective(s: Slot, i: nat)
    requires i < SlotCount
    ensures SlotAt(SlotIndex(s)) == s
    ensures SlotIndex(SlotAt(i)) == i
  {
  }

  /** Two different slots never share a byte offset. */
  lemma SlotOffsetsDistinct(s: Slot, t: Slot)
    requires s != t
    ensures SlotOffset(s) != SlotOffset(t)
  {
    SlotLayoutBijective(s, 0);
    SlotLayoutBijective(t, 0);
  }

  /** The declared argument kinds of each slot, after the receiver. */
  function Signature(s: Slot): seq<ArgKind>
  {
    match s
    case SetTimelineTooltip => [CStr, F32]
    case ClearTimelineTooltip => [F32]
    case SetTimelineGameMode => [GameModeArg]
    case AddInstantaneousTimelineEvent => [CStr, CStr, CStr, U32, F32, ClipPriorityArg]
    case AddRangeTimelineEvent => [CStr, CStr, CStr, U32, F32, F32, ClipPriorityArg]
    case StartRangeTimelineEvent => [CStr, CStr, CStr, U32, F32, ClipPriorityArg]
    case UpdateRangeTimelineEvent => [EventArg, CStr, CStr, CStr, U32, ClipPriorityArg]
    case EndRangeTimelineEvent => [EventArg, F32]
    case RemoveTimelineEvent => [EventArg]
    case DoesEventRecordingExist => [EventArg]
    case StartGamePhase => []
    case EndGamePhase => []
    case SetGamePhaseID => [CStr]
    case DoesGamePhaseRecordingExist => [CStr]
    case AddGamePhaseTag => [CStr, CStr, CStr, U32]
    case SetGamePhaseAttribute => [CStr, CStr, U32]
    case OpenOverlayToGamePhase => [CStr]
    case OpenOverlayToTimelineEvent => [EventArg]
  }

  /** The declared return kind of each slot. */
  function Returns(s: Slot): ReturnKind
  {
    match s
    case AddInstantaneousTimelineEvent => NInt
    case AddRangeTimelineEvent => NInt
    case StartRangeTimelineEvent => NInt
    case DoesEventRecordingExist => NInt
    case DoesGamePhaseRecordingExist => NInt
    case _ => Void
  }
}

=== FILE: wrappers.dfy ===
/** Failure-compatible wrapper types used throughout the model: an optional
    value (the source's nullable `uint?` and null pointers) and a result that
    carries either a value or the reason a step gave up. */
module Wrappers {

  datatype Option<+T> = None | Some(value: T) {

    /** The carried value, or `default` when there is none. */
    function GetOr(default: T): (r: T)
      ensures Some? ==> r == value
      ensures None? ==> r == default
    {
      match this
      case Some(v) => v
      case None => default
    }
  }

  datatype Result<+R, +E> = Success(value: R) | Failure(error: E) {

    /** Forgets the failure reason. */
    function ToOption(): (r: Option<R>)
      ensures r.Some? <==> Success?
      ensures Success? ==> r.value == value
    {
      match this
      case Success(v) => Some(v)
      case Failure(_) => None
    }
  }
}
